=== FILE: README.md ===
# mercado-projeto list pages, modelled in Dafny

The console's clients, products and orders pages each keep their records in
one in-memory array. Each page offers the same cycle over it: create appends a
record with the next integer id, edit replaces a record by id, delete filters
the id out, and a search box narrows the list with a case-insensitive
substring match. The clients and orders tables can also be sorted by clicking
a column; a second click on the same column reverses the direction. The sales
page searches a fixed history and sums up "today's" completed sales. Three
forms copy a record into editable fields, change one field per input event and
hand the fields back on submit.

The model keeps that structure:

- `Store` is the entity store, generic in the record's fields. A record is
  `Entity(id, fields)`, where `fields` is the "record minus id" draft the
  forms emit.
- `Seqs` holds the order-preserving filter and the summing `reduce`.
- `Text` holds substring search, `split('T')[0]`, integer `toString()` and
  the `||` defaults.
- `Query` holds the sort toggle, the comparator and a sorted view.
- `PageFlow` is the page as a state machine: listing, or showing the form for
  a new or an existing record.
- `ClientsPage`, `ProductsPage`, `OrdersPage` and `SalesPage` instantiate
  these for the four record kinds and hold their seed data.
- `ClientForm`, `ProductForm` and `OrderForm` model the three form adapters.

Modelling choices:

- Money (price, total) is an integer number of cents.
- `toLowerCase` is a parameter `lower: string -> string`. Properties that need
  `"".toLowerCase() == ""` assume exactly that. `AsciiLower` is one concrete
  instance, used in the worked example.
- `parseFloat`/`parseInt` results are `Option<int>`; `None` stands for `NaN`.
- The current time is a string parameter `now`.
- The ids in the orders and sales searches are written out with a concrete
  decimal `toString`.
- The pages hand their comparator to `Array.prototype.sort`. That comparator
  never returns 0 and answers -1 both ways round on equal keys, so the order
  the browser produces is engine-dependent. The model proves facts about the
  comparator itself. For the displayed order it chooses a stable insertion
  sort that never places a pair against the comparator.
- Edit and delete of an absent id are silent no-ops, because the code maps
  and filters (`EditAbsentIsNoop`, `DeleteAbsentIsNoop`); the page never
  produces an absent id (`SubmittedEditFindsTarget`).
- The products page has no sorting; the reversal property is proved for the
  generic view and for the orders table.
- Besides their `required` fields, the product and order forms have
  `min="0"` numeric inputs, which the browser enforces before it lets a
  submit through; the submit gates check both.

## Model

| member | source | states |
|---|---|---|
| Store.MaxId | src/pages/Clients.tsx:77 | `Math.max(...ids, 0)` is at least 0 and every id, and is 0 or one of the ids |
| Store.NextId | src/pages/Clients.tsx:75-78 | the new id is at least 1, above every existing id, and either 1 or one more than an existing id |
| Store.Find | src/pages/Clients.tsx:108 | `find` by id returns nothing exactly when no record has the id, otherwise a present record with that id |
| Store.Create | src/pages/Clients.tsx:74-80 | create appends exactly one record at the end, with the draft's fields and an id above all others (1 on an empty list). Earlier records keep their positions and values. Distinct and positive ids stay so |
| Store.Edit | src/pages/Clients.tsx:92-96 | edit keeps the length and every id; records with the edited id get the draft's fields; all other records are unchanged; distinct and positive ids stay so |
| Store.Delete | src/pages/Clients.tsx:109 | delete keeps exactly the records whose id differs; distinct and positive ids stay so |
| Store.FilterPreservesUnique | src/pages/Clients.tsx:109 | filtering a list with distinct ids yields a list with distinct ids |
| Store.MaxIdOfPart | src/pages/Products.tsx:85 | a list drawn from another has no larger maximum id, and the same one if it keeps the record that carries it |
| Store.CreateThenFind | src/pages/Products.tsx:82-88 | the id create assigns was free before, and afterwards finds the created record |
| Store.EditThenFind | src/pages/Products.tsx:100-104 | after editing a present id, looking it up yields the draft under the same id |
| Store.FindIsFirst | src/pages/Clients.tsx:108 | a successful find returns the record at the first position with that id |
| Store.EditAbsentIsNoop | src/pages/Orders.tsx:103-107 | editing an id no order has leaves the list unchanged |
| Store.DeleteAbsentIsNoop | src/pages/Orders.tsx:119 | deleting an id no order has leaves the list unchanged |
| Store.DeleteKeepsOrder | src/pages/Products.tsx:117 | delete keeps the other products in their relative order and with their multiplicities |
| Store.DeleteTwice | src/pages/Clients.tsx:107-109 | after a delete the id is gone, and deleting it again changes nothing |
| Store.DeleteShrinksByOne | src/pages/Orders.tsx:118-119 | with distinct ids, deleting a present id removes exactly one order |
| Seqs.Filter | src/pages/Products.tsx:77-80 | `filter` keeps exactly the elements satisfying the predicate, each as often as in the input |
| Seqs.FilterIsSubsequence | src/pages/Clients.tsx:52-55 | the filtered list is a subsequence of the input |
| Seqs.FilterKeepAll | src/pages/Products.tsx:77-80 | if every element passes, the filter returns the input unchanged |
| Seqs.FilterCons | src/pages/Clients.tsx:52-55 | filtering a list with a known first element keeps that element exactly when it passes, in front of the filtered rest |
| Seqs.FilterFullLength | src/pages/Sales.tsx:83 | the filter keeps as many elements as the input has exactly when every element passes |
| Seqs.SumOf | src/pages/Sales.tsx:84 | the `reduce((sum, x) => sum + f(x), 0)` sum; `Seqs.SumOfPartition` splits it over any filter and `Seqs.FilteredSumBounded` bounds a filtered part |
| Seqs.SumOfPartition | src/pages/Sales.tsx:84 | the sum over the kept part plus the sum over the dropped part is the sum over the whole |
| Seqs.FilteredSumBounded | src/pages/Sales.tsx:83-84 | with non-negative amounts, the sum over a filtered part lies between 0 and the sum over the whole |
| Seqs.ReversePermutes | src/pages/Orders.tsx:60-63 | reversing a list permutes it |
| Text.Includes | src/pages/Clients.tsx:53-54 | `String.prototype.includes`; tied to the positional definition of a substring by `Text.IncludesIffOccurs` |
| Text.IncludesIffOccurs | src/pages/Clients.tsx:53-54 | `includes` holds exactly when the needle occurs at some position |
| Text.IncludesWitness | src/pages/Clients.tsx:53-54 | a string that includes the needle has a position where the needle starts |
| Text.OccursImpliesIncludes | src/pages/Clients.tsx:53-54 | a needle starting at some position is included |
| Text.IncludesTrivial | src/pages/Products.tsx:78-79 | every string includes the empty string and itself |
| Text.IncludesNeedsFirstChar | src/pages/Clients.tsx:53-54 | a string lacking the needle's first character does not include it |
| Text.BeforeFirst | src/components/OrderForm.tsx:26 | `split('T')[0]` is a prefix of the input without a 'T', and is either the whole input or stops at a 'T' |
| Text.OrElse | src/components/ProductForm.tsx:27-31 | the string truthiness default is empty only when both sides are; a non-empty left side wins; an empty left side yields the default; the default `''` leaves every string unchanged |
| Text.NumberOr | src/components/ProductForm.tsx:28-29 | the number truthiness default is 0 only when both sides are; a non-zero left side wins; a zero left side yields the default; the default 0 leaves every number unchanged |
| Text.IntToString | src/pages/Orders.tsx:55 | `Number.prototype.toString` on an integer id: a minus sign for negatives, then the decimal digits; `Text.DecimalRoundTrip` reads them back and `Text.IntToStringInjective` shows distinct ids print differently |
| Text.NatToDecimal | src/pages/Orders.tsx:55 | `toString` of a non-negative integer is a non-empty string of digits without a leading zero |
| Text.DecimalRoundTrip | src/pages/Orders.tsx:55 | reading the decimal string of a number gives the number back |
| Text.IntToStringInjective | src/pages/Sales.tsx:80 | different ids have different strings |
| Query.Toggle | src/pages/Clients.tsx:65-72 | the chosen field becomes the sort field; the same field flips the direction, a different one sets ascending |
| Query.ToggleTwice | src/pages/Orders.tsx:66-73 | two clicks on the current column restore the state; two clicks on a new column leave it descending |
| Query.Less | src/pages/Clients.tsx:59-62 | the `<` and `>` the comparator applies to column values: numbers by value, strings lexicographically by character, numbers before strings across kinds; `Query.LessIsStrictTotalOrder` shows it is a strict total order |
| Query.LessIsStrictTotalOrder | src/pages/Clients.tsx:59-62 | the `<` the comparator uses is irreflexive, asymmetric, transitive and total on sort values |
| Query.Compare | src/pages/Clients.tsx:56-63 | the comparator returns 1 or -1, never 0. Ascending returns 1 iff a > b; descending returns 1 iff a < b |
| Query.CompareMirror | src/pages/Orders.tsx:57-64 | on distinct values descending is negated ascending and swapping the arguments negates; on equal values both orders return -1 |
| Query.InOrderTotal | src/pages/Orders.tsx:57-64 | of two values, at least one order is accepted by the comparator, and exactly one when they differ |
| Query.InOrderTransitive | src/pages/Orders.tsx:57-64 | the comparator's accepted order is transitive |
| Query.Insert | src/pages/Orders.tsx:57-64 | inserting adds exactly the one record to the view's contents |
| Query.InsertSorted | src/pages/Orders.tsx:57-64 | inserting into a comparator-ordered list keeps it comparator-ordered |
| Query.SortView | src/pages/Clients.tsx:56-63 | the sorted view is a permutation of its input |
| Query.InOrderReflexive | src/pages/Clients.tsx:59-62 | on equal values the comparator returns -1, so equal values may stay in place |
| Query.InsertKeepsTies | src/pages/Orders.tsx:57-64 | inserting a record puts it ahead of the records sharing its sort value and keeps their order |
| Query.SortViewKeepsTies | src/pages/Orders.tsx:57-64 | the view is stable: the records sharing any one sort value appear in the same order as in the list |
| Query.SortViewSorted | src/pages/Orders.tsx:57-64 | every pair in the sorted view is in an order the comparator accepts |
| Query.SortedUnique | src/pages/Orders.tsx:57-64 | two comparator-ordered permutations of the same records are equal when no two records share a key |
| Query.SameHead | src/pages/Orders.tsx:57-64 | two sorted permutations with distinct keys begin with the same record |
| Query.SameTails | src/pages/Orders.tsx:57-64 | removing the same first record from two permutations of the view leaves two permutations |
| Query.SortedTail | src/pages/Orders.tsx:57-64 | the tail of a comparator-ordered list is comparator-ordered |
| Query.ReverseAscIsDesc | src/pages/Clients.tsx:59-62 | reversing an ascending list gives a descending one |
| Query.DescViewIsReversedAsc | src/pages/Clients.tsx:59-62 | with distinct keys, the descending view is exactly the reversed ascending view |
| PageFlow.Step | src/pages/Clients.tsx:74-135 | an event that is not on screen changes nothing. "New" opens the form and keeps the list; the edit button opens the form on that record and keeps the list; the delete button applies delete to the id; the search box only changes the term; submit and cancel return to the list with nothing in edit, and cancel keeps the records |
| PageFlow.Initial | src/pages/Clients.tsx:21-47 | the page starts with its seed, an empty search and the list shown |
| PageFlow.InitialValid | src/pages/Clients.tsx:21-47 | a seed with distinct positive ids gives a valid page |
| PageFlow.StepPreservesValid | src/pages/Clients.tsx:74-126 | every event keeps ids distinct and positive, and the record in edit present |
| PageFlow.SubmittedEditFindsTarget | src/pages/Clients.tsx:89-96 | saving an edit always finds its record and leaves the draft under that record's id |
| PageFlow.SubmittedCreateAppends | src/pages/Clients.tsx:74-81 | saving a new record appends it with the next id and moves nothing else |
| PageFlow.EditButtonThenSave | src/pages/Clients.tsx:89-121 | on a valid page, the edit button on a listed record followed by a save is exactly an edit of that record's id with the draft |
| PageFlow.DeleteButton | src/pages/Clients.tsx:107-109 | the delete button on a listed id is exactly a delete of that id |
| PageFlow.NewButtonThenSave | src/pages/Clients.tsx:74-81 | on a valid page, "new" followed by a save is exactly a create with the draft |
| PageFlow.RunPreservesValid | src/pages/Clients.tsx:74-126 | any sequence of events keeps the page valid |
| ClientsPage.Search | src/pages/Clients.tsx:51-55 | a client is kept iff its lower-cased name or e-mail contains the lower-cased term |
| ClientsPage.View | src/pages/Clients.tsx:51-63 | the table shows exactly the matching clients, each as often as in the list |
| ClientsPage.SortKey | src/pages/Clients.tsx:57-58 | `client[sortField]`: the id compares as a number and the other fields as strings; `ClientsPage.ViewSorted` orders the table by it |
| ClientsPage.InitialSortToggles | src/pages/Clients.tsx:48-49 | the table starts sorted by name ascending; a click on name then sorts descending, a click on any other column sorts by it ascending |
| ClientsPage.SearchProperties | src/pages/Clients.tsx:51-55 | the hits are a subsequence of the list, and an empty term keeps every client whenever lower-casing maps '' to '' |
| ClientsPage.ViewSorted | src/pages/Clients.tsx:56-63 | the table is in the comparator's order for the current sort state |
| ClientsPage.SeedValid | src/pages/Clients.tsx:21-43 | the seed ids are distinct and positive, and the next id is 4 |
| ClientsPage.SearchExample | src/pages/Clients.tsx:51-55 | searching "JO" over the seed finds João Silva only |
| ProductsPage.Search | src/pages/Products.tsx:77-80 | a product is kept iff its lower-cased name or category contains the lower-cased term |
| ProductsPage.SearchProperties | src/pages/Products.tsx:77-80 | the hits are a subsequence of the list, and an empty term yields the list unchanged whenever lower-casing maps '' to '' |
| ProductsPage.SeedValid | src/pages/Products.tsx:22-71 | the seed ids are distinct and positive, and the next id is 7 |
| ProductsPage.CreateDeleteCreate | src/pages/Products.tsx:82-117 | from one product with id 1: create gets id 2; deleting id 1 leaves that product; the next create gets id 3 |
| ProductsPage.DeleteFirstOfTwo | src/pages/Products.tsx:117 | deleting the first of two products with distinct ids leaves the second |
| ProductsPage.IdReuseAfterDeletingMax | src/pages/Products.tsx:85 | after deleting the product with the largest id, the next id does not exceed it, and equals it when that id is 1 or its predecessor is present; deleting any other id leaves the next id unchanged |
| Store.DeleteMaxFreesIt | src/pages/Products.tsx:85-117 | deleting the largest id when it is 1 or its predecessor is present makes the next create hand out that same id |
| Store.MaxIdBounds | src/pages/Products.tsx:85 | every record's id is at most `Math.max(...ids, 0)` |
| Store.MaxIdBelow | src/pages/Products.tsx:85 | when every id lies below a positive bound, so does `Math.max(...ids, 0)` |
| ProductsPage.DeleteOtherKeepsNextId | src/pages/Products.tsx:85-117 | deleting an id other than the largest leaves the next id unchanged |
| OrdersPage.ParseStatus | src/pages/Orders.tsx:17 | a recognised status string names the status it was parsed as |
| OrdersPage.StatusRoundTrip | src/pages/Orders.tsx:17 | each of the four statuses is recovered from its string |
| OrdersPage.InitialSortToggles | src/pages/Orders.tsx:49-50 | the table starts sorted by date, descending. From there any column click sorts by that column ascending |
| OrdersPage.Search | src/pages/Orders.tsx:52-56 | an order is kept iff its lower-cased client name contains the lower-cased term, or its id string contains the term as typed |
| OrdersPage.View | src/pages/Orders.tsx:52-64 | the table shows exactly the matching orders, each as often as in the list |
| OrdersPage.SortKey | src/pages/Orders.tsx:58-59 | `order[sortField]`: id and total compare as numbers, client name, date and status as strings; `OrdersPage.ViewSorted` orders the table by it |
| OrdersPage.SearchProperties | src/pages/Orders.tsx:52-56 | the hits are a subsequence; an empty term keeps every order whatever the lower-casing, since every id's text includes ''; typing an order's number finds it |
| OrdersPage.ViewSorted | src/pages/Orders.tsx:57-64 | the table is in the comparator's order for the current sort state |
| OrdersPage.IdViewToggleReverses | src/pages/Orders.tsx:57-73 | with distinct ids, a second click on the number column shows exactly the reversed table |
| OrdersPage.SeedValid | src/pages/Orders.tsx:22-44 | the seed ids are distinct and positive, and the next id is 4 |
| SalesPage.Search | src/pages/Sales.tsx:78-81 | a sale is kept iff its lower-cased customer contains the lower-cased term, or its id string contains the term as typed |
| SalesPage.SearchProperties | src/pages/Sales.tsx:78-81 | the hits are a subsequence; an empty term keeps every sale whatever the lower-casing, since every id's text includes ''; typing a sale's number finds it |
| SalesPage.TodaySales | src/pages/Sales.tsx:83 | today's sales are exactly the completed sales dated 2024-06-25, no more than all sales |
| SalesPage.TodayRevenue | src/pages/Sales.tsx:84 | today's revenue is 0 when there are no sales today |
| SalesPage.TodayRevenueProperties | src/pages/Sales.tsx:83-84 | today's sales keep list order; today's revenue plus the other sales' revenue is the total; with non-negative totals it lies between 0 and the total |
| SalesPage.SeedSummary | src/pages/Sales.tsx:26-84 | on the seed, today's sales are the first three and the revenue is 6878 cents |
| SalesPage.FirstThreeToday | src/pages/Sales.tsx:83-84 | if only the first three of four sales are today's, those are today's sales and their totals add up to the revenue |
| SalesPage.SeedToday | src/pages/Sales.tsx:26-74 | the first three seed sales are today's completed ones, the fourth is not, and their totals add up to 6878 |
| ClientForm.Init | src/components/ClientForm.tsx:23-28 | a new client starts with four empty fields; an existing one with its own four fields |
| ClientForm.Change | src/components/ClientForm.tsx:35-40 | a change sets exactly the named field and leaves the other three |
| ClientForm.Submit | src/components/ClientForm.tsx:30-33 | the form submits iff all four required fields are non-empty, and then emits its fields unchanged |
| ClientForm.RoundTrip | src/components/ClientForm.tsx:23-33 | opening a filled-in client and saving untouched yields the client minus its id; a blank new form does not submit |
| ClientForm.EditOneField | src/components/ClientForm.tsx:23-40 | saving after one non-empty change yields the client with that one field replaced |
| ClientForm.UneditedSaveChangesNothing | src/pages/Clients.tsx:89-96 | opening a listed client and saving it untouched leaves the client list as it was |
| ProductForm.Init | src/components/ProductForm.tsx:26-32 | the form starts with the product's values, with '' for a missing description; a new product starts blank with zeros |
| ProductForm.Change | src/components/ProductForm.tsx:50-55 | a change sets exactly the named field and leaves the others |
| ProductForm.OnPriceInput | src/components/ProductForm.tsx:87 | an unparseable price stores 0, a parsed one its value, and nothing else changes |
| ProductForm.OnStockInput | src/components/ProductForm.tsx:100 | an unparseable stock stores 0, a parsed one its value, and nothing else changes |
| ProductForm.Submit | src/components/ProductForm.tsx:45-48 | the form submits iff the name is filled and price and stock are not negative, and emits its fields with the description present |
| ProductForm.RoundTrip | src/components/ProductForm.tsx:26-48 | an unedited save yields the product minus id, a missing description becoming '' |
| ProductForm.ReopenShowsSubmitted | src/components/ProductForm.tsx:26-48 | a stored submission reopened in the form shows the same field values |
| ProductForm.CategoriesOffered | src/components/ProductForm.tsx:34-43 | the category list has no repeats and contains every seed product's category |
| OrderForm.StatusOptionsMatchStatuses | src/components/OrderForm.tsx:31-36 | the status options are exactly the four status values, each once |
| OrderForm.TodayFrom | src/components/OrderForm.tsx:26 | the default date is the timestamp up to its first 'T': a prefix with no 'T' in it that is either all of the timestamp or followed by a 'T' |
| OrderForm.IsoTimestampDate | src/components/OrderForm.tsx:26 | for an ISO timestamp the default date is its first ten characters |
| OrderForm.Init | src/components/OrderForm.tsx:24-29 | a new order starts blank, dated today, total 0, pending. An existing order's values are copied, except that an empty date becomes today's |
| OrderForm.Change | src/components/OrderForm.tsx:43-48 | a change sets exactly the named field and leaves the others |
| OrderForm.OnTotalInput | src/components/OrderForm.tsx:91 | an unparseable total stores 0, a parsed one its value, and nothing else changes |
| OrderForm.OnStatusSelect | src/components/OrderForm.tsx:100-103 | choosing an option sets the status it names and nothing else |
| OrderForm.Submit | src/components/OrderForm.tsx:38-41 | the form submits iff client name and date are filled and the total is not negative, and emits its fields unchanged |
| OrderForm.RoundTrip | src/components/OrderForm.tsx:24-41 | an unedited save yields the order minus id; an order with an empty date comes back dated today |

## Left out

- Rendering, layout, status badges (`getStatusColor`), currency and date formatting: view only.
- Toast notifications: fire-and-forget calls into a hook that is not shown.
- Routing (`src/App.tsx`), the login form, the dashboard, reports, settings and the product card: `src/App.tsx`, `src/components/LoginForm.tsx`, `src/pages/Dashboard.tsx`, `src/pages/Reports.tsx`, `src/pages/Settings.tsx` and `src/components/ProductCard.tsx` are not part of this model; they hold no list logic.
- The output order of `Array.prototype.sort`: engine-dependent with this comparator; `Query.SortView` is a stable sort chosen for the model (`Query.SortViewKeepsTies`).
- Floating-point money: prices and totals are integer cents, so `toFixed` rounding and float sums are not modelled.
- Ids beyond JavaScript's safe integers: ids are unbounded integers printed in decimal, so exponent notation from 10^21 on and non-integer ids are not modelled.
- Store.Create: ids at or above 2^53, where `max + 1` rounds onto an existing id, are not modelled (ids are unbounded integers), so its distinct-ids guarantee holds for the model, not for such a program state.
- The `Math.max(...ids)` spread, which throws on very large arrays: not modelled.
- `toLowerCase` beyond a parameter, and `parseFloat`/`parseInt` beyond an `Option<int>` result: the real Unicode and parsing rules are not modelled.
- JavaScript's coercing `<` between a number and a string: no column mixes kinds, so `Query.Less` simply puts numbers first.
- String comparison by UTF-16 code units: the model compares characters by code point, which agrees on the Basic Multilingual Plane.
- The "Nova Venda" button on the sales page: it only shows a toast.
- Closure and `prev` reads in the handlers: every handler runs inside one synchronous event, so both read the same array and the model treats them as one state value.
- ClientForm.Submit: the browser's e-mail shape check on the `type="email"` input is not modelled; the gate only checks that the four fields are non-empty.
- ProductForm.Submit: the browser's `step="0.01"` check on the price input is not modelled, because a price in whole cents always meets it.
- OrderForm.Submit: the date input's own format check is not modelled; the gate only checks that the date is non-empty. The `step="0.01"` check on the total input is not modelled either, because a total in whole cents always meets it.
- OrderForm.OnStatusSelect: requires the value to be one of the select's options, which is all the select can produce.
- ProductForm.Change, OrderForm.Change: require the value's kind to match the field, because every call site passes a number for numeric fields and a string otherwise.

=== FILE: clientform.dfy ===
/** The client form: editable copies of a client's four fields, all of them
    required. */
module ClientForm {
  import opened Wrappers
  import opened Text
  import opened Store
  import opened ClientsPage
  import opened PageFlow

  /** The names `handleChange` is called with. */
  datatype Field = Name | Email | Phone | Address

  function Get(st: ClientFields, f: Field): string {
    match f
    case Name => st.name
    case Email => st.email
    case Phone => st.phone
    case Address => st.address
  }

  /** The initial `formData`: each field of the client being edited, or the
      empty string when a new client is being created. */
  function Init(client: Option<Client>): (st: ClientFields)
    ensures client.None? ==> forall f :: Get(st, f) == ""
    ensures client.Some? ==> st == client.value.fields
  {
    match client
    case None => ClientFields("", "", "", "")
    case Some(c) =>
      ClientFields(OrElse(c.fields.name, ""), OrElse(c.fields.email, ""),
                   OrElse(c.fields.phone, ""), OrElse(c.fields.address, ""))
  }

  /** `handleChange(field, value)`: that field takes the value, the others
      keep theirs. */
  function Change(st: ClientFields, f: Field, v: string): (r: ClientFields)
    ensures Get(r, f) == v
    ensures forall g :: g != f ==> Get(r, g) == Get(st, g)
  {
    match f
    case Name => st.(name := v)
    case Email => st.(email := v)
    case Phone => st.(phone := v)
    case Address => st.(address := v)
  }

  /** Submitting: the browser holds the form back while a required field is
      empty; otherwise `handleSubmit` hands `formData` to `onSubmit` as it is. */
  function Submit(st: ClientFields): (r: Option<ClientFields>)
    ensures r.Some? <==> forall f :: Get(st, f) != ""
    ensures r.Some? ==> r.value == st
  {
    if st.name != "" && st.email != "" && st.phone != "" && st.address != "" then Some(st)
    else
      assert Get(st, Field.Name) == "" || Get(st, Field.Email) == "" || Get(st, Field.Phone) == "" || Get(st, Field.Address) == "";
      None
  }

  /** Opening a client with every field filled and saving without edits
      yields that client minus its id; a new client's blank form cannot be
      submitted as it is. */
  lemma RoundTrip(c: Client)
    requires forall f :: Get(c.fields, f) != ""
    ensures Submit(Init(Some(c))) == Some(c.fields)
    ensures Submit(Init(None)).None?
  {
    assert Get(Init(None), Field.Name) == "";
  }

  /** Saving after one change yields the opened client with that one field
      replaced. */
  lemma EditOneField(c: Client, f: Field, v: string)
    requires forall g :: Get(c.fields, g) != ""
    requires v != ""
    ensures Submit(Change(Init(Some(c)), f, v)).Some?
    ensures var d := Submit(Change(Init(Some(c)), f, v)).value;
      Get(d, f) == v && forall g :: g != f ==> Get(d, g) == Get(c.fields, g)
  {
    var st := Change(Init(Some(c)), f, v);
    assert forall g :: Get(st, g) != "";
  }

  /** Opening a listed client in the form and saving it untouched leaves the
      client list exactly as it was. */
  lemma UneditedSaveChangesNothing(p: Page<ClientFields>)
    requires Valid(p) && p.editing.Some?
    requires forall f :: Get(p.editing.value.fields, f) != ""
    ensures Submit(Init(p.editing)) == Some(p.editing.value.fields)
    ensures Step(p, Submitted(Submit(Init(p.editing)).value)).records == p.records
  {
    var e := p.editing.value;
    var k :| 0 <= k < |p.records| && p.records[k] == e;
    var r := Edit(p.records, e.id, e.fields);
    forall i | 0 <= i < |p.records| ensures r[i] == p.records[i] {
      if p.records[i].id == e.id {
        assert i == k;
      }
    }
  }
}

=== FILE: clients.dfy ===
/** The clients page: a client store, a search on name and e-mail, and a
    table sortable by any client field, initially by name ascending. */
module ClientsPage {
  import opened Seqs
  import opened Text
  import opened Store
  import opened Query

  /** A client minus its id: the draft the client form emits. */
  datatype ClientFields = ClientFields(name: string, email: string, phone: string, address: string)

  type Client = Entity<ClientFields>

  /** `keyof Client`: the fields the table can be sorted by. */
  datatype ClientKey = Id | Name | Email | Phone | Address

  /** `client[sortField]`: the id compares as a number, the other fields as
      strings. */
  function SortKey(c: Client, k: ClientKey): SortValue {
    match k
    case Id => Num(c.id)
    case Name => Str(c.fields.name)
    case Email => Str(c.fields.email)
    case Phone => Str(c.fields.phone)
    case Address => Str(c.fields.address)
  }

  /** The sort state the page starts in: by name, ascending. */
  const InitialSort: SortState<ClientKey> := SortState(Name, Asc)

  /** From the initial state, a click on the name column reverses it, and a
      click on any other column sorts by that column ascending. */
  lemma InitialSortToggles(k: ClientKey)
    ensures InitialSort.field == Name && InitialSort.dir == Asc
    ensures Toggle(InitialSort, Name) == SortState(Name, Desc)
    ensures k != Name ==> Toggle(InitialSort, k) == SortState(k, Asc)
  {
  }

  /** The search predicate: the lower-cased term occurs in the lower-cased
      name or in the lower-cased e-mail. `lower` stands for `toLowerCase`. */
  predicate Matches(c: Client, term: string, lower: string -> string) {
    Includes(lower(c.fields.name), lower(term)) || Includes(lower(c.fields.email), lower(term))
  }

  /** The filter half of `filteredAndSortedClients`. */
  function Search(cs: seq<Client>, term: string, lower: string -> string): (r: seq<Client>)
    ensures forall c :: c in r <==> c in cs && Matches(c, term, lower)
    ensures |r| <= |cs|
  {
    Filter(cs, c => Matches(c, term, lower))
  }

  /** `filteredAndSortedClients`: the matching clients ordered by the
      current sort state. */
  function View(cs: seq<Client>, term: string, lower: string -> string, st: SortState<ClientKey>): (r: seq<Client>)
    ensures multiset(r) == multiset(Search(cs, term, lower))
    ensures forall c :: c in r <==> c in cs && Matches(c, term, lower)
  {
    var r := SortView(Search(cs, term, lower), c => SortKey(c, st.field), st.dir);
    assert forall c :: c in r <==> c in multiset(Search(cs, term, lower));
    r
  }

  /** The search keeps its hits in list order, and an empty search box, which
      lower-cases to the empty string, keeps every client. */
  lemma SearchProperties(cs: seq<Client>, term: string, lower: string -> string)
    ensures IsSubsequence(Search(cs, term, lower), cs)
    ensures lower("") == "" ==> Search(cs, "", lower) == cs
  {
    FilterIsSubsequence(cs, c => Matches(c, term, lower));
    if lower("") == "" {
      forall i | 0 <= i < |cs| ensures Matches(cs[i], "", lower) {
        IncludesTrivial(lower(cs[i].fields.name));
      }
      FilterKeepAll(cs, c => Matches(c, "", lower));
    }
  }

  /** The view lists its clients in the comparator's order. */
  lemma ViewSorted(cs: seq<Client>, term: string, lower: string -> string, st: SortState<ClientKey>)
    ensures SortedBy(View(cs, term, lower, st), c => SortKey(c, st.field), st.dir)
  {
    SortViewSorted(Search(cs, term, lower), c => SortKey(c, st.field), st.dir);
  }

  /** The three clients the page starts with. */
  const Seed: seq<Client> := [
    Entity(1, ClientFields("João Silva", "joao@email.com", "(11) 99999-1111", "Rua A, 123")),
    Entity(2, ClientFields("Maria Santos", "maria@email.com", "(11) 99999-2222", "Rua B, 456")),
    Entity(3, ClientFields("Pedro Costa", "pedro@email.com", "(11) 99999-3333", "Rua C, 789"))
  ]

  lemma SeedValid()
    ensures IdsUnique(Seed) && IdsPositive(Seed)
    ensures NextId(Seed) == 4
  {
  }

  /** Searching "JO" finds João by name and nobody else. */
  lemma SearchExample()
    ensures Search(Seed, "JO", AsciiLower) == [Seed[0]]
  {
    SeedAgainstJo();
    OnlyFirstKept(Seed, c => Matches(c, "JO", AsciiLower));
  }

  lemma OnlyFirstKept(s: seq<Client>, keep: Client -> bool)
    requires |s| == 3 && keep(s[0]) && !keep(s[1]) && !keep(s[2])
    ensures Filter(s, keep) == [s[0]]
  {
    assert s[1..][1..][1..] == [];
  }

  lemma SeedAgainstJo()
    ensures Matches(Seed[0], "JO", AsciiLower)
    ensures !Matches(Seed[1], "JO", AsciiLower)
    ensures !Matches(Seed[2], "JO", AsciiLower)
  {
    NamedMatchesJo(Seed[0]);
    SecondMissesJo();
    ThirdMissesJo();
  }

  lemma SecondMissesJo()
    ensures !Matches(Seed[1], "JO", AsciiLower)
  {
    MissesJo(Seed[1]);
  }

  lemma ThirdMissesJo()
    ensures !Matches(Seed[2], "JO", AsciiLower)
  {
    MissesJo(Seed[2]);
  }

  lemma NamedMatchesJo(c: Client)
    requires c.fields.name == "João Silva"
    ensures Matches(c, "JO", AsciiLower)
  {
    assert AsciiLower("JO") == "jo";
    assert IsPrefix("jo", AsciiLower("João Silva"));
  }

  lemma MissesJo(c: Client)
    requires 'j' !in c.fields.name && 'J' !in c.fields.name
    requires 'j' !in c.fields.email && 'J' !in c.fields.email
    ensures !Matches(c, "JO", AsciiLower)
  {
    assert AsciiLower("JO") == "jo";
    var name, email := AsciiLower(c.fields.name), AsciiLower(c.fields.email);
    assert 'j' !in name && 'j' !in email;
    IncludesNeedsFirstChar(name, "jo");
    IncludesNeedsFirstChar(email, "jo");
  }
}

=== FILE: orderform.dfy ===
/** The order form: editable client name, date, total and status. Client
    name, date and total are required inputs, the total with a minimum of 0;
    the status is chosen from the four statuses. */
module OrderForm {
  import opened Wrappers
  import opened Text
  import opened Store
  import opened OrdersPage

  /** The names `handleChange` is called with. */
  datatype Field = ClientName | Date | Total | Status

  /** `handleChange` takes a string, a number, or a status from the select. */
  datatype FieldValue = Str(s: string) | Number(n: int) | Choice(st: OrderStatus)

  function Get(st: OrderFields, f: Field): FieldValue {
    match f
    case ClientName => Str(st.clientName)
    case Date => Str(st.date)
    case Total => Number(st.total)
    case Status => Choice(st.status)
  }

  predicate Fits(f: Field, v: FieldValue) {
    match f
    case ClientName => v.Str?
    case Date => v.Str?
    case Total => v.Number?
    case Status => v.Choice?
  }

  /** One entry of `statusOptions`. */
  datatype StatusOption = StatusOption(value: string, caption: string)

  const StatusOptions: seq<StatusOption> := [
    StatusOption("pendente", "Pendente"),
    StatusOption("processando", "Processando"),
    StatusOption("concluido", "Concluído"),
    StatusOption("cancelado", "Cancelado")
  ]

  /** The select has an option with this value. */
  predicate Offered(value: string) {
    exists i :: 0 <= i < |StatusOptions| && StatusOptions[i].value == value
  }

  /** The select offers exactly the four statuses of an order, each once. */
  lemma StatusOptionsMatchStatuses()
    ensures forall i :: 0 <= i < |StatusOptions| ==> ParseStatus(StatusOptions[i].value).Some?
    ensures forall st: OrderStatus :: Offered(StatusName(st))
    ensures forall i, j :: 0 <= i < j < |StatusOptions| ==> StatusOptions[i].value != StatusOptions[j].value
  {
    assert StatusOptions[0].value == StatusName(Pendente);
    assert StatusOptions[1].value == StatusName(Processando);
    assert StatusOptions[2].value == StatusName(Concluido);
    assert StatusOptions[3].value == StatusName(Cancelado);
  }

  /** `new Date().toISOString().split('T')[0]` for the timestamp `now`:
      the timestamp up to its first 'T', or all of it when it has none. */
  function TodayFrom(now: string): (d: string)
    ensures IsPrefix(d, now) && 'T' !in d
    ensures d == now || now[|d|] == 'T'
  {
    BeforeFirst(now, 'T')
  }

  /** For an ISO timestamp the default date is its first ten characters. */
  lemma IsoTimestampDate(now: string)
    requires |now| > 10 && now[10] == 'T' && 'T' !in now[..10]
    ensures TodayFrom(now) == now[..10]
  {
  }

  /** The initial `formData`: the order's values, except that an empty date
      becomes today's; or a blank pending order dated today. */
  function Init(order: Option<Order>, now: string): (st: OrderFields)
    ensures order.None? ==> st == OrderFields("", TodayFrom(now), 0, Pendente)
    ensures order.Some? ==>
      var o := order.value.fields;
      && st.clientName == o.clientName && st.total == o.total && st.status == o.status
      && st.date == (if o.date != "" then o.date else TodayFrom(now))
  {
    match order
    case None => OrderFields(OrElse("", ""), OrElse("", TodayFrom(now)), NumberOr(0, 0), Pendente)
    case Some(e) =>
      OrderFields(OrElse(e.fields.clientName, ""), OrElse(e.fields.date, TodayFrom(now)),
                  NumberOr(e.fields.total, 0), e.fields.status)
  }

  /** `handleChange(field, value)`: that field takes the value, the others
      keep theirs. */
  function Change(st: OrderFields, f: Field, v: FieldValue): (r: OrderFields)
    requires Fits(f, v)
    ensures Get(r, f) == v
    ensures forall g :: g != f ==> Get(r, g) == Get(st, g)
  {
    match f
    case ClientName => st.(clientName := v.s)
    case Date => st.(date := v.s)
    case Total => st.(total := v.n)
    case Status => st.(status := v.st)
  }

  /** The total input: `parseFloat(text) || 0`, so text that does not parse
      stores 0. */
  function OnTotalInput(st: OrderFields, parsed: Option<int>): (r: OrderFields)
    ensures r.total == (if parsed.Some? then parsed.value else 0)
    ensures r == st.(total := r.total)
  {
    Change(st, Field.Total, Number(NumberOr(parsed.GetOr(0), 0)))
  }

  /** The status select: its value is one of the option values. */
  function OnStatusSelect(st: OrderFields, value: string): (r: OrderFields)
    requires Offered(value)
    ensures StatusName(r.status) == value
    ensures r == st.(status := r.status)
  {
    match ParseStatus(value)
    case Some(s) => Change(st, Field.Status, Choice(s))
    case None => assert false; st
  }

  /** The browser's checks on submit: client name and date are filled in and
      the total is not below 0. */
  predicate Acceptable(st: OrderFields) {
    st.clientName != "" && st.date != "" && st.total >= 0
  }

  /** Submitting: held back by the browser unless acceptable; otherwise
      `formData` goes to `onSubmit` as it is. */
  function Submit(st: OrderFields): (r: Option<OrderFields>)
    ensures r.Some? <==> Acceptable(st)
    ensures r.Some? ==> r.value == st
  {
    if Acceptable(st) then Some(st) else None
  }

  /** Opening an order and saving without edits yields the order minus its
      id; an order with an empty date comes back dated today. */
  lemma RoundTrip(o: Order, now: string)
    requires o.fields.clientName != "" && o.fields.total >= 0
    ensures o.fields.date != "" ==> Submit(Init(Some(o), now)) == Some(o.fields)
    ensures o.fields.date == "" && TodayFrom(now) != "" ==>
      Submit(Init(Some(o), now)) == Some(o.fields.(date := TodayFrom(now)))
  {
  }
}

=== FILE: orders.dfy ===
/** The orders page: an order store, a search on client name and order
    number, and a table sortable by any order field, initially by date in
    descending order. Totals are in cents. */
module OrdersPage {
  import opened Wrappers
  import opened Seqs
  import opened Text
  import opened Store
  import opened Query

  /** The order status union. */
  datatype OrderStatus = Pendente | Processando | Concluido | Cancelado

  /** The string each status is written as. */
  function StatusName(st: OrderStatus): string {
    match st
    case Pendente => "pendente"
    case Processando => "processando"
    case Concluido => "concluido"
    case Cancelado => "cancelado"
  }

  /** The status a select value names, if any. */
  function ParseStatus(s: string): (r: Option<OrderStatus>)
    ensures r.Some? ==> StatusName(r.value) == s
  {
    if s == "pendente" then Some(Pendente)
    else if s == "processando" then Some(Processando)
    else if s == "concluido" then Some(Concluido)
    else if s == "cancelado" then Some(Cancelado)
    else None
  }

  /** Every status survives a trip through its string. */
  lemma StatusRoundTrip(st: OrderStatus)
    ensures ParseStatus(StatusName(st)) == Some(st)
  {
  }

  /** An order minus its id: the draft the order form emits. */
  datatype OrderFields = OrderFields(clientName: string, date: string, total: int, status: OrderStatus)

  type Order = Entity<OrderFields>

  /** `keyof Order`: the fields the table can be sorted by. */
  datatype OrderKey = Id | ClientName | Date | Total | Status

  /** `order[sortField]`: id and total compare as numbers (the total in
      cents, which orders as the amount does), the rest as strings. */
  function SortKey(o: Order, k: OrderKey): SortValue {
    match k
    case Id => Num(o.id)
    case ClientName => Str(o.fields.clientName)
    case Date => Str(o.fields.date)
    case Total => Num(o.fields.total)
    case Status => Str(StatusName(o.fields.status))
  }

  /** The sort state the page starts in: newest date first. */
  const InitialSort: SortState<OrderKey> := SortState(Date, Desc)

  /** From the initial state, clicking the date column shows the oldest
      first and clicking any other column sorts by it ascending. */
  lemma InitialSortToggles(k: OrderKey)
    ensures InitialSort.field == Date && InitialSort.dir == Desc
    ensures Toggle(InitialSort, k) == SortState(k, Asc)
  {
  }

  /** The search predicate: the lower-cased term occurs in the lower-cased
      client name, or the term as typed occurs in the order number. */
  predicate Matches(o: Order, term: string, lower: string -> string) {
    Includes(lower(o.fields.clientName), lower(term)) || Includes(IntToString(o.id), term)
  }

  /** The filter half of `filteredAndSortedOrders`. */
  function Search(os: seq<Order>, term: string, lower: string -> string): (r: seq<Order>)
    ensures forall o :: o in r <==> o in os && Matches(o, term, lower)
    ensures |r| <= |os|
  {
    Filter(os, o => Matches(o, term, lower))
  }

  /** `filteredAndSortedOrders`. */
  function View(os: seq<Order>, term: string, lower: string -> string, st: SortState<OrderKey>): (r: seq<Order>)
    ensures multiset(r) == multiset(Search(os, term, lower))
    ensures forall o :: o in r <==> o in os && Matches(o, term, lower)
  {
    var r := SortView(Search(os, term, lower), o => SortKey(o, st.field), st.dir);
    assert forall o :: o in r <==> o in multiset(Search(os, term, lower));
    r
  }

  /** The search keeps its hits in list order, an empty search box keeps
      every order whatever the lower-casing (every id's text includes the
      empty string), and typing an order's number always finds that order. */
  lemma SearchProperties(os: seq<Order>, term: string, lower: string -> string)
    ensures IsSubsequence(Search(os, term, lower), os)
    ensures Search(os, "", lower) == os
    ensures forall o :: o in os ==> o in Search(os, IntToString(o.id), lower)
  {
    FilterIsSubsequence(os, o => Matches(o, term, lower));
    forall i | 0 <= i < |os| ensures Matches(os[i], "", lower) {
      IncludesTrivial(IntToString(os[i].id));
    }
    FilterKeepAll(os, o => Matches(o, "", lower));
    forall o | o in os ensures Matches(o, IntToString(o.id), lower) {
      IncludesTrivial(IntToString(o.id));
    }
  }

  /** The view lists its orders in the comparator's order. */
  lemma ViewSorted(os: seq<Order>, term: string, lower: string -> string, st: SortState<OrderKey>)
    ensures SortedBy(View(os, term, lower, st), o => SortKey(o, st.field), st.dir)
  {
    SortViewSorted(Search(os, term, lower), o => SortKey(o, st.field), st.dir);
  }

  /** With distinct order numbers, clicking the number column a second time
      shows exactly the reversed table. */
  lemma IdViewToggleReverses(os: seq<Order>, term: string, lower: string -> string)
    requires IdsUnique(os)
    ensures View(os, term, lower, Toggle(SortState(Id, Asc), Id))
         == Reverse(View(os, term, lower, SortState(Id, Asc)))
  {
    var hits := Search(os, term, lower);
    var key := (o: Order) => SortKey(o, Id);
    forall x, y | x in hits && y in hits && key(x) == key(y) ensures x == y {
      var i :| 0 <= i < |os| && os[i] == x;
      var j :| 0 <= j < |os| && os[j] == y;
      assert i == j;
    }
    DescViewIsReversedAsc(hits, key);
  }

  /** The three orders the page starts with. */
  const Seed: seq<Order> := [
    Entity(1, OrderFields("João Silva", "2024-01-15", 8550, Concluido)),
    Entity(2, OrderFields("Maria Santos", "2024-01-16", 14230, Processando)),
    Entity(3, OrderFields("Pedro Costa", "2024-01-16", 6780, Pendente))
  ]

  lemma SeedValid()
    ensures IdsUnique(Seed) && IdsPositive(Seed)
    ensures NextId(Seed) == 4
  {
  }
}

=== FILE: page.dfy ===
/** The state a list page keeps in its hooks and the events that change it:
    the page is either listing its records or showing the form, for a new
    record or for an existing one. */
module PageFlow {
  import opened Wrappers
  import opened Store

  datatype Page<D> = Page(
    records: seq<Entity<D>>,
    search: string,
    showForm: bool,
    editing: Option<Entity<D>>)

  /** The user actions a page reacts to. The list actions are only offered
      while the list is shown, the form actions only while the form is. */
  datatype Event<D> =
    | OpenCreate
    | StartEdit(record: Entity<D>)
    | DeleteRecord(id: int)
    | SetSearch(term: string)
    | CancelForm
    | Submitted(draft: D)

  /** The event is on screen: edit and delete buttons belong to listed
      records, the form's buttons to the open form. */
  predicate Enabled<D(==)>(p: Page<D>, ev: Event<D>) {
    match ev
    case OpenCreate => !p.showForm
    case StartEdit(r) => !p.showForm && r in p.records
    case DeleteRecord(id) => !p.showForm && Find(p.records, id).Some?
    case SetSearch(_) => !p.showForm
    case CancelForm => p.showForm
    case Submitted(_) => p.showForm
  }

  /** The page's handlers: `setShowForm`, `startEdit`, `handleDelete`,
      `setSearchTerm`, `cancelForm`, and the form's `onSubmit`, which is
      `handleEdit` while a record is being edited and `handleCreate`
      otherwise. An event that is not on screen changes nothing. */
  function Step<D(==,!new)>(p: Page<D>, ev: Event<D>): (q: Page<D>)
    ensures !Enabled(p, ev) ==> q == p
    ensures ev.OpenCreate? && Enabled(p, ev) ==> q.showForm && q.editing == p.editing && q.records == p.records
    ensures ev.StartEdit? && Enabled(p, ev) ==> q.showForm && q.editing == Some(ev.record) && q.records == p.records
    ensures ev.DeleteRecord? && Enabled(p, ev) ==> q.records == Delete(p.records, ev.id)
    ensures ev.SetSearch? ==> q.records == p.records
    ensures ev.Submitted? && Enabled(p, ev) ==> !q.showForm && q.editing.None?
    ensures ev.CancelForm? && Enabled(p, ev) ==> !q.showForm && q.editing.None? && q.records == p.records
    ensures q.search == (if ev.SetSearch? && Enabled(p, ev) then ev.term else p.search)
  {
    if !Enabled(p, ev) then p
    else
      match ev
      case OpenCreate => p.(showForm := true)
      case StartEdit(r) => p.(showForm := true, editing := Some(r))
      case DeleteRecord(id) => p.(records := Delete(p.records, id))
      case SetSearch(t) => p.(search := t)
      case CancelForm => p.(showForm := false, editing := None)
      case Submitted(d) =>
        var records := match p.editing
          case Some(e) => Edit(p.records, e.id, d)
          case None => Create(p.records, d);
        p.(records := records, showForm := false, editing := None)
  }

  /** What holds on every page from its seed data on: ids are positive and
      pairwise distinct, and a record being edited is open in the form and
      still present in the list. */
  predicate Valid<D(==)>(p: Page<D>) {
    && IdsUnique(p.records)
    && IdsPositive(p.records)
    && (p.editing.Some? ==> p.showForm && p.editing.value in p.records)
  }

  /** The page as first rendered: the seed records, an empty search box and
      the list shown. */
  function Initial<D>(seed: seq<Entity<D>>): (p: Page<D>)
    ensures p.records == seed && p.search == "" && !p.showForm && p.editing.None?
  {
    Page(seed, "", false, None)
  }

  lemma InitialValid<D>(seed: seq<Entity<D>>)
    requires IdsUnique(seed) && IdsPositive(seed)
    ensures Valid(Initial(seed))
  {
  }

  /** Every event keeps the page valid. */
  lemma StepPreservesValid<D(!new)>(p: Page<D>, ev: Event<D>)
    requires Valid(p)
    ensures Valid(Step(p, ev))
  {
  }

  /** Saving an edit always finds its target, so the edit replaces exactly
      one record: the one that was opened in the form. */
  lemma SubmittedEditFindsTarget<D(!new)>(p: Page<D>, d: D)
    requires Valid(p) && p.editing.Some?
    ensures Find(p.records, p.editing.value.id).Some?
    ensures Find(Step(p, Submitted(d)).records, p.editing.value.id) == Some(Entity(p.editing.value.id, d))
  {
    var e := p.editing.value;
    var k :| 0 <= k < |p.records| && p.records[k] == e;
    assert Find(p.records, e.id).Some?;
    EditThenFind(p.records, e.id, d);
  }

  /** The edit button followed by a save replaces the listed record's
      fields under its own id, and nothing else. */
  lemma EditButtonThenSave<D(!new)>(p: Page<D>, r: Entity<D>, d: D)
    requires Valid(p) && !p.showForm && r in p.records
    ensures Step(Step(p, StartEdit(r)), Submitted(d)).records == Edit(p.records, r.id, d)
  {
  }

  /** The delete button removes the records carrying the id. */
  lemma DeleteButton<D(!new)>(p: Page<D>, id: int)
    requires !p.showForm && Find(p.records, id).Some?
    ensures Step(p, DeleteRecord(id)).records == Delete(p.records, id)
  {
  }

  /** The "new" button followed by a save appends the draft under the next
      id, and nothing else: on a valid page the list is only shown while no
      record is in edit, so the save creates. */
  lemma NewButtonThenSave<D(!new)>(p: Page<D>, d: D)
    requires Valid(p) && !p.showForm
    ensures Step(Step(p, OpenCreate), Submitted(d)).records == Create(p.records, d)
  {
  }

  /** Saving a new record appends it with a fresh id; nothing else moves. */
  lemma SubmittedCreateAppends<D(!new)>(p: Page<D>, d: D)
    requires p.showForm && p.editing.None?
    ensures var q := Step(p, Submitted(d));
      && |q.records| == |p.records| + 1
      && q.records[..|p.records|] == p.records
      && q.records[|p.records|] == Entity(NextId(p.records), d)
  {
  }

  /** Events folded over a page from left to right. */
  function Run<D(==,!new)>(p: Page<D>, evs: seq<Event<D>>): (q: Page<D>)
    decreases |evs|
  {
    if evs == [] then p else Run(Step(p, evs[0]), evs[1..])
  }

  /** Any sequence of events keeps a valid page valid. */
  lemma {:induction false} RunPreservesValid<D(!new)>(p: Page<D>, evs: seq<Event<D>>)
    requires Valid(p)
    ensures Valid(Run(p, evs))
    decreases |evs|
  {
    if evs != [] {
      StepPreservesValid(p, evs[0]);
      RunPreservesValid(Step(p, evs[0]), evs[1..]);
    }
  }
}

=== FILE: productform.dfy ===
/** The product form: editable name, price, stock, category and description.
    Name, price and stock are required inputs, price and stock with a minimum
    of 0; category is chosen from a fixed list. */
module ProductForm {
  import opened Wrappers
  import opened Text
  import opened Store
  import opened ProductsPage

  /** `formData`: unlike a product, the description is always a string. */
  datatype FormState = FormState(name: string, price: int, stock: int, category: string, description: string)

  /** The names `handleChange` is called with. */
  datatype Field = Name | Price | Stock | Category | Description

  /** `handleChange` takes a string or a number. */
  datatype FieldValue = Str(s: string) | Number(n: int)

  function Get(st: FormState, f: Field): FieldValue {
    match f
    case Name => Str(st.name)
    case Price => Number(st.price)
    case Stock => Number(st.stock)
    case Category => Str(st.category)
    case Description => Str(st.description)
  }

  /** Every input passes a number for price and stock and a string for the
      other fields. */
  predicate Fits(f: Field, v: FieldValue) {
    (f == Price || f == Stock) <==> v.Number?
  }

  /** The category choices the select offers. */
  const Categories: seq<string> :=
    ["Alimentos", "Bebidas", "Higiene", "Limpeza", "Padaria", "Açougue", "Hortifruti", "Outros"]

  /** The initial `formData`: the product's values, with `''` for a missing
      description, or blanks and zeros for a new product. */
  function Init(product: Option<Product>): (st: FormState)
    ensures product.None? ==> st == FormState("", 0, 0, "", "")
    ensures product.Some? ==>
      var p := product.value.fields;
      && st.name == p.name && st.price == p.price && st.stock == p.stock
      && st.category == p.category && st.description == p.description.GetOr("")
  {
    match product
    case None => FormState("", 0, 0, "", "")
    case Some(e) =>
      FormState(OrElse(e.fields.name, ""), NumberOr(e.fields.price, 0), NumberOr(e.fields.stock, 0),
                OrElse(e.fields.category, ""), OrElse(e.fields.description.GetOr(""), ""))
  }

  /** `handleChange(field, value)`: that field takes the value, the others
      keep theirs. */
  function Change(st: FormState, f: Field, v: FieldValue): (r: FormState)
    requires Fits(f, v)
    ensures Get(r, f) == v
    ensures forall g :: g != f ==> Get(r, g) == Get(st, g)
  {
    match f
    case Name => st.(name := v.s)
    case Price => st.(price := v.n)
    case Stock => st.(stock := v.n)
    case Category => st.(category := v.s)
    case Description => st.(description := v.s)
  }

  /** The price input: `parseFloat(text) || 0`, so text that does not parse
      stores 0 instead of being rejected. `parsed` is the parse result. */
  function OnPriceInput(st: FormState, parsed: Option<int>): (r: FormState)
    ensures r.price == (if parsed.Some? then parsed.value else 0)
    ensures r == st.(price := r.price)
  {
    Change(st, Price, Number(NumberOr(parsed.GetOr(0), 0)))
  }

  /** The stock input: `parseInt(text) || 0`. */
  function OnStockInput(st: FormState, parsed: Option<int>): (r: FormState)
    ensures r.stock == (if parsed.Some? then parsed.value else 0)
    ensures r == st.(stock := r.stock)
  {
    Change(st, Stock, Number(NumberOr(parsed.GetOr(0), 0)))
  }

  /** The browser's checks on submit: the name is filled in and neither
      number is below its minimum of 0. */
  predicate Acceptable(st: FormState) {
    st.name != "" && st.price >= 0 && st.stock >= 0
  }

  /** Submitting: held back by the browser unless acceptable; otherwise
      `formData` goes to `onSubmit` as it is, the description as a string. */
  function Submit(st: FormState): (r: Option<ProductFields>)
    ensures r.Some? <==> Acceptable(st)
    ensures r.Some? ==>
      && r.value.name == st.name && r.value.price == st.price && r.value.stock == st.stock
      && r.value.category == st.category && r.value.description == Some(st.description)
  {
    if Acceptable(st) then
      Some(ProductFields(st.name, st.price, st.stock, st.category, Some(st.description)))
    else None
  }

  /** Opening a product and saving without edits yields the product minus its
      id, except that a missing description comes back as the empty one. */
  lemma RoundTrip(p: Product)
    requires p.fields.name != "" && p.fields.price >= 0 && p.fields.stock >= 0
    ensures Submit(Init(Some(p))) == Some(p.fields.(description := Some(p.fields.description.GetOr(""))))
    ensures p.fields.description.Some? ==> Submit(Init(Some(p))) == Some(p.fields)
  {
  }

  /** What a submit stores, reopened in the form, shows the same form. */
  lemma ReopenShowsSubmitted(st: FormState, id: int)
    requires Acceptable(st)
    ensures Init(Some(Entity(id, Submit(st).value))) == st
  {
  }

  /** The select offers each category once, among them every category of
      the seed products. */
  lemma CategoriesOffered()
    ensures forall i, j :: 0 <= i < j < |Categories| ==> Categories[i] != Categories[j]
    ensures forall i :: 0 <= i < |Seed| ==> Seed[i].fields.category in Categories
  {
  }
}

=== FILE: products.dfy ===
/** The products page: a product store shown as cards, searched on name and
    category. The page offers no sorting. Prices are in cents. */
module ProductsPage {
  import opened Wrappers
  import opened Seqs
  import opened Text
  import opened Store

  /** A product minus its id; the description is optional. */
  datatype ProductFields = ProductFields(
    name: string,
    price: int,
    stock: int,
    category: string,
    description: Option<string>)

  type Product = Entity<ProductFields>

  /** The search predicate: the lower-cased term occurs in the lower-cased
      name or in the lower-cased category. */
  predicate Matches(p: Product, term: string, lower: string -> string) {
    Includes(lower(p.fields.name), lower(term)) || Includes(lower(p.fields.category), lower(term))
  }

  /** `filteredProducts`. */
  function Search(ps: seq<Product>, term: string, lower: string -> string): (r: seq<Product>)
    ensures forall p :: p in r <==> p in ps && Matches(p, term, lower)
    ensures |r| <= |ps|
  {
    Filter(ps, p => Matches(p, term, lower))
  }

  /** The search keeps its hits in list order, and an empty search box keeps
      the whole list as it is. */
  lemma SearchProperties(ps: seq<Product>, term: string, lower: string -> string)
    ensures IsSubsequence(Search(ps, term, lower), ps)
    ensures lower("") == "" ==> Search(ps, "", lower) == ps
  {
    FilterIsSubsequence(ps, p => Matches(p, term, lower));
    if lower("") == "" {
      forall i | 0 <= i < |ps| ensures Matches(ps[i], "", lower) {
        IncludesTrivial(lower(ps[i].fields.name));
      }
      FilterKeepAll(ps, p => Matches(p, "", lower));
    }
  }

  /** The six products the page starts with. */
  const Seed: seq<Product> := [
    Entity(1, ProductFields("Leite Integral 1L", 499, 50, "Alimentos", Some("Leite integral pasteurizado"))),
    Entity(2, ProductFields("Pão Francês", 80, 100, "Padaria", Some("Pão francês fresquinho"))),
    Entity(3, ProductFields("Detergente 500ml", 350, 25, "Limpeza", Some("Detergente líquido para louças"))),
    Entity(4, ProductFields("Refrigerante Cola 2L", 890, 30, "Bebidas", Some("Refrigerante sabor cola"))),
    Entity(5, ProductFields("Açúcar Crystal 1kg", 420, 5, "Alimentos", Some("Açúcar cristal refinado"))),
    Entity(6, ProductFields("Shampoo 400ml", 1290, 15, "Higiene", Some("Shampoo para todos os tipos de cabelo")))
  ]

  lemma SeedValid()
    ensures IdsUnique(Seed) && IdsPositive(Seed)
    ensures NextId(Seed) == 7
  {
  }

  /** Starting from one product with id 1: a create gets id 2; deleting id 1
      leaves only that new product; the next create gets id 3, because the
      next id is computed from the ids present, not from a counter. */
  lemma CreateDeleteCreate(first: ProductFields, second: ProductFields, third: ProductFields)
    ensures var s1 := Create([Entity(1, first)], second);
      && s1 == [Entity(1, first), Entity(2, second)]
      && Delete(s1, 1) == [Entity(2, second)]
      && Create(Delete(s1, 1), third) == [Entity(2, second), Entity(3, third)]
  {
    var s1 := Create([Entity(1, first)], second);
    assert NextId([Entity(1, first)]) == 2;
    DeleteFirstOfTwo(Entity(1, first), Entity(2, second));
    assert NextId([Entity(2, second)]) == 3;
  }

  lemma DeleteFirstOfTwo(a: Product, b: Product)
    requires a.id != b.id
    ensures Delete([a, b], a.id) == [b]
  {
    assert [a, b][1..] == [b];
    assert [b][1..] == [];
  }

  /** Ids are not reserved: once the products with the largest id are
      deleted, the next id does not exceed the deleted one, and equals it
      when the ids below it are dense enough (it is 1, or its predecessor is
      present). Deleting any other id leaves the next id as it was. */
  lemma IdReuseAfterDeletingMax(s: seq<Product>)
    requires MaxId(s) > 0
    ensures NextId(Delete(s, MaxId(s))) <= MaxId(s)
    ensures (MaxId(s) == 1 || exists i :: 0 <= i < |s| && s[i].id == MaxId(s) - 1) ==>
      NextId(Delete(s, MaxId(s))) == MaxId(s)
    ensures forall id :: id != MaxId(s) ==> NextId(Delete(s, id)) == NextId(s)
  {
    if MaxId(s) == 1 || exists i :: 0 <= i < |s| && s[i].id == MaxId(s) - 1 {
      DeleteMaxFreesIt(s, MaxId(s));
    }
    forall id | id != MaxId(s) ensures NextId(Delete(s, id)) == NextId(s) {
      DeleteOtherKeepsNextId(s, id);
    }
    var t := Delete(s, MaxId(s));
    forall i | 0 <= i < |t| ensures t[i].id < MaxId(s) {
      assert t[i] in s;
    }
  }

  /** Deleting an id below the maximum keeps a record carrying the maximum. */
  lemma DeleteOtherKeepsNextId(s: seq<Product>, id: int)
    requires MaxId(s) > 0 && id != MaxId(s)
    ensures NextId(Delete(s, id)) == NextId(s)
  {
    var k :| 0 <= k < |s| && s[k].id == MaxId(s);
    var t := Delete(s, id);
    assert s[k] in t;
    var j :| 0 <= j < |t| && t[j] == s[k];
    MaxIdOfPart(t, s);
  }
}

=== FILE: query.dfy ===
/** The query view of a page: the two-state sort toggle, the comparator the
    pages hand to `Array.prototype.sort`, and a sorted view built with it. */
module Query {
  import opened Seqs

  datatype Direction = Asc | Desc

  function Flip(d: Direction): (r: Direction)
    ensures r != d
  {
    if d == Asc then Desc else Asc
  }

  /** The pair of `useState` hooks `sortField` / `sortDirection`. */
  datatype SortState<F> = SortState(field: F, dir: Direction)

  /** `handleSort(field)`: choosing the current field flips the direction;
      choosing another field selects it in ascending direction. */
  function Toggle<F(==)>(st: SortState<F>, f: F): (r: SortState<F>)
    ensures r.field == f
    ensures f == st.field ==> r.dir == Flip(st.dir)
    ensures f != st.field ==> r.dir == Asc
  {
    if f == st.field then st.(dir := Flip(st.dir)) else SortState(f, Asc)
  }

  /** Choosing the same field twice returns to the starting state, and the
      second choice of a new field always yields descending order. */
  lemma ToggleTwice<F>(st: SortState<F>, f: F)
    ensures Toggle(Toggle(st, st.field), st.field) == st
    ensures f != st.field ==> Toggle(Toggle(st, f), f) == SortState(f, Desc)
  {
  }

  /** A value a record can be sorted by: a number or a string. */
  datatype SortValue = Num(n: int) | Str(s: string)

  /** JavaScript `<` on strings: lexicographic on characters, a proper
      prefix coming first. */
  predicate LexLess(a: string, b: string)
    decreases |a|
  {
    if a == [] then b != []
    else b != [] && (a[0] < b[0] || (a[0] == b[0] && LexLess(a[1..], b[1..])))
  }

  /** JavaScript `<` on two numbers or on two strings. A sort field never
      mixes the two kinds; numbers are put first so that the order is total. */
  predicate Less(a: SortValue, b: SortValue) {
    match (a, b)
    case (Num(x), Num(y)) => x < y
    case (Str(x), Str(y)) => LexLess(x, y)
    case (Num(_), Str(_)) => true
    case (Str(_), Num(_)) => false
  }

  lemma {:induction false} LexLessIrreflexive(a: string)
    ensures !LexLess(a, a)
    decreases |a|
  {
    if a != [] { LexLessIrreflexive(a[1..]); }
  }

  lemma {:induction false} LexLessTransitive(a: string, b: string, c: string)
    requires LexLess(a, b) && LexLess(b, c)
    ensures LexLess(a, c)
    decreases |a|
  {
    if a != [] && a[0] == b[0] && b[0] == c[0] {
      LexLessTransitive(a[1..], b[1..], c[1..]);
    }
  }

  lemma {:induction false} LexLessConnected(a: string, b: string)
    requires a != b
    ensures LexLess(a, b) || LexLess(b, a)
    decreases |a|
  {
    if a != [] && b != [] && a[0] == b[0] {
      assert a == [a[0]] + a[1..] && b == [b[0]] + b[1..];
      LexLessConnected(a[1..], b[1..]);
    }
  }

  /** `Less` is a strict total order on sort values. */
  lemma LessIsStrictTotalOrder(a: SortValue, b: SortValue, c: SortValue)
    ensures !Less(a, a)
    ensures Less(a, b) ==> !Less(b, a)
    ensures Less(a, b) && Less(b, c) ==> Less(a, c)
    ensures a != b ==> Less(a, b) || Less(b, a)
  {
    if a.Str? { LexLessIrreflexive(a.s); }
    if a.Str? && b.Str? {
      if LexLess(a.s, b.s) && LexLess(b.s, a.s) {
        LexLessTransitive(a.s, b.s, a.s);
      }
      if a.s != b.s { LexLessConnected(a.s, b.s); }
      if c.Str? && LexLess(a.s, b.s) && LexLess(b.s, c.s) {
        LexLessTransitive(a.s, b.s, c.s);
      }
    }
  }

  /** The comparator `(a, b) => asc ? (a > b ? 1 : -1) : (a < b ? 1 : -1)`
      applied to the two records' sort values. */
  function Compare(a: SortValue, b: SortValue, dir: Direction): (r: int)
    ensures r == 1 || r == -1
    ensures r == 1 <==> (dir == Asc && Less(b, a)) || (dir == Desc && Less(a, b))
  {
    match dir
    case Asc => if Less(b, a) then 1 else -1
    case Desc => if Less(a, b) then 1 else -1
  }

  /** On distinct values the comparator is antisymmetric and the descending
      comparator is the negated ascending one. On equal values it returns -1
      both ways round, so it is not a consistent comparator on ties. */
  lemma CompareMirror(a: SortValue, b: SortValue)
    ensures a != b ==> Compare(a, b, Desc) == -Compare(a, b, Asc)
    ensures a != b ==> Compare(b, a, Asc) == -Compare(a, b, Asc)
    ensures Compare(a, a, Asc) == -1 && Compare(a, a, Desc) == -1
  {
    LessIsStrictTotalOrder(a, b, a);
  }

  /** `a` may stay before `b`: the comparator does not ask to swap them. */
  predicate InOrder(a: SortValue, b: SortValue, dir: Direction) {
    Compare(a, b, dir) < 0
  }

  lemma InOrderTotal(a: SortValue, b: SortValue, dir: Direction)
    ensures InOrder(a, b, dir) || InOrder(b, a, dir)
    ensures a != b ==> (InOrder(a, b, dir) <==> !InOrder(b, a, dir))
  {
    LessIsStrictTotalOrder(a, b, a);
  }

  lemma InOrderTransitive(a: SortValue, b: SortValue, c: SortValue, dir: Direction)
    requires InOrder(a, b, dir) && InOrder(b, c, dir)
    ensures InOrder(a, c, dir)
  {
    LessIsStrictTotalOrder(a, b, c);
    LessIsStrictTotalOrder(c, b, a);
    LessIsStrictTotalOrder(a, c, b);
    LessIsStrictTotalOrder(b, a, c);
  }

  /** Every pair of the view is in an order the comparator accepts. */
  ghost predicate SortedBy<T>(s: seq<T>, key: T -> SortValue, dir: Direction) {
    forall i, j :: 0 <= i < j < |s| ==> InOrder(key(s[i]), key(s[j]), dir)
  }

  /** Insert `x` before the first element it may precede. */
  function Insert<T(==)>(x: T, s: seq<T>, key: T -> SortValue, dir: Direction): (r: seq<T>)
    ensures multiset(r) == multiset(s) + multiset{x}
    ensures |r| == |s| + 1
    decreases |s|
  {
    if s == [] || InOrder(key(x), key(s[0]), dir) then [x] + s
    else
      assert s == [s[0]] + s[1..];
      [s[0]] + Insert(x, s[1..], key, dir)
  }

  lemma {:induction false} InsertSorted<T>(x: T, s: seq<T>, key: T -> SortValue, dir: Direction)
    requires SortedBy(s, key, dir)
    ensures SortedBy(Insert(x, s, key, dir), key, dir)
    decreases |s|
  {
    var r := Insert(x, s, key, dir);
    if s == [] {
    } else if InOrder(key(x), key(s[0]), dir) {
      forall i, j | 0 <= i < j < |r| ensures InOrder(key(r[i]), key(r[j]), dir) {
        if i == 0 && j > 1 {
          InOrderTransitive(key(x), key(s[0]), key(s[j - 1]), dir);
        }
      }
    } else {
      InOrderTotal(key(x), key(s[0]), dir);
      var tail := s[1..];
      assert SortedBy(tail, key, dir) by {
        forall i, j | 0 <= i < j < |tail| ensures InOrder(key(tail[i]), key(tail[j]), dir) {
          assert tail[i] == s[i + 1] && tail[j] == s[j + 1];
        }
      }
      InsertSorted(x, tail, key, dir);
      var rest := Insert(x, tail, key, dir);
      assert r == [s[0]] + rest;
      forall k | 0 <= k < |rest| ensures InOrder(key(s[0]), key(rest[k]), dir) {
        assert rest[k] in multiset(rest);
        assert rest[k] == x || rest[k] in multiset(tail);
        if rest[k] != x {
          var m :| 0 <= m < |tail| && tail[m] == rest[k];
          assert s[m + 1] == rest[k];
        }
      }
      forall i, j | 0 <= i < j < |r| ensures InOrder(key(r[i]), key(r[j]), dir) {
        if i == 0 {
          assert r[j] == rest[j - 1];
        } else {
          assert r[i] == rest[i - 1] && r[j] == rest[j - 1];
        }
      }
    }
  }

  /** The sorted view: a stable insertion sort with the page comparator.
      Records the comparator does not order keep their original order. */
  function SortView<T(==)>(s: seq<T>, key: T -> SortValue, dir: Direction): (r: seq<T>)
    ensures multiset(r) == multiset(s)
    ensures |r| == |s|
    decreases |s|
  {
    if s == [] then []
    else
      assert s == [s[0]] + s[1..];
      Insert(s[0], SortView(s[1..], key, dir), key, dir)
  }

  /** Equal sort values may stay in place. */
  lemma InOrderReflexive(k: SortValue, dir: Direction)
    ensures InOrder(k, k, dir)
  {
    CompareMirror(k, k);
  }

  /** The records whose sort value is `v`. */
  function HasKey<T>(key: T -> SortValue, v: SortValue): T -> bool {
    y => key(y) == v
  }

  /** Inserting `x` places it ahead of every record with its own sort value,
      so among the records sharing a value the order is unchanged and `x`
      comes first. */
  lemma {:induction false} InsertKeepsTies<T(!new)>(x: T, s: seq<T>, key: T -> SortValue, dir: Direction, v: SortValue)
    ensures Filter(Insert(x, s, key, dir), HasKey(key, v))
         == (if key(x) == v then [x] else []) + Filter(s, HasKey(key, v))
    decreases |s|
  {
    var p := HasKey(key, v);
    if s == [] || InOrder(key(x), key(s[0]), dir) {
      FilterCons(x, s, p);
    } else {
      var rest := Insert(x, s[1..], key, dir);
      assert Insert(x, s, key, dir) == [s[0]] + rest;
      assert s == [s[0]] + s[1..];
      InsertKeepsTies(x, s[1..], key, dir, v);
      FilterCons(s[0], rest, p);
      FilterCons(s[0], s[1..], p);
      var head := if p(s[0]) then [s[0]] else [];
      if key(x) == v {
        InOrderReflexive(key(x), dir);
        assert head == [];
        assert Filter(rest, p) == [x] + Filter(s[1..], p);
      } else {
        assert Filter(rest, p) == [] + Filter(s[1..], p) == Filter(s[1..], p);
        assert Filter(Insert(x, s, key, dir), p) == head + Filter(s[1..], p);
      }
    }
  }

  /** The sorted view is stable: the records sharing any one sort value
      appear in the view exactly as they appear in the input. */
  lemma {:induction false} SortViewKeepsTies<T(!new)>(s: seq<T>, key: T -> SortValue, dir: Direction, v: SortValue)
    ensures Filter(SortView(s, key, dir), HasKey(key, v)) == Filter(s, HasKey(key, v))
    decreases |s|
  {
    if s != [] {
      SortViewKeepsTies(s[1..], key, dir, v);
      InsertKeepsTies(s[0], SortView(s[1..], key, dir), key, dir, v);
      FilterCons(s[0], s[1..], HasKey(key, v));
      assert s == [s[0]] + s[1..];
    }
  }

  /** The sorted view is ordered by the comparator. */
  lemma {:induction false} SortViewSorted<T>(s: seq<T>, key: T -> SortValue, dir: Direction)
    ensures SortedBy(SortView(s, key, dir), key, dir)
    decreases |s|
  {
    if s != [] {
      SortViewSorted(s[1..], key, dir);
      InsertSorted(s[0], SortView(s[1..], key, dir), key, dir);
    }
  }

  /** No two different records of `s` share a sort value. */
  ghost predicate KeyInjective<T(!new)>(s: seq<T>, key: T -> SortValue) {
    forall x, y :: x in s && y in s && key(x) == key(y) ==> x == y
  }

  /** Two sorted arrangements of the same records are the same sequence
      when no two different records share a sort value. */
  lemma {:induction false} SortedUnique<T(!new)>(a: seq<T>, b: seq<T>, key: T -> SortValue, dir: Direction)
    requires multiset(a) == multiset(b)
    requires SortedBy(a, key, dir) && SortedBy(b, key, dir)
    requires KeyInjective(a, key)
    ensures a == b
    decreases |a|
  {
    if a == [] {
      assert |b| == |multiset(b)| == 0;
    } else {
      SameHead(a, b, key, dir);
      SameTails(a, b);
      SortedTail(a, key, dir);
      SortedTail(b, key, dir);
      assert KeyInjective(a[1..], key) by {
        assert forall x :: x in a[1..] ==> x in a;
      }
      SortedUnique(a[1..], b[1..], key, dir);
      assert a == [a[0]] + a[1..] && b == [b[0]] + b[1..];
    }
  }

  /** Two sorted arrangements of the same non-empty records with distinct
      sort values start with the same record. */
  lemma SameHead<T(!new)>(a: seq<T>, b: seq<T>, key: T -> SortValue, dir: Direction)
    requires a != [] && multiset(a) == multiset(b)
    requires SortedBy(a, key, dir) && SortedBy(b, key, dir)
    requires KeyInjective(a, key)
    ensures b != [] && a[0] == b[0]
  {
    assert |b| == |multiset(b)| == |multiset(a)| == |a|;
    assert a[0] in multiset(b) && b[0] in multiset(a);
    var k :| 0 <= k < |b| && b[k] == a[0];
    var m :| 0 <= m < |a| && a[m] == b[0];
    if k > 0 && m > 0 {
      assert InOrder(key(b[0]), key(a[0]), dir);
      assert InOrder(key(a[0]), key(b[0]), dir);
      InOrderTotal(key(a[0]), key(b[0]), dir);
      assert a[0] in a && b[0] in a;
    }
  }

  /** Removing the same first record from two permutations leaves two
      permutations. */
  lemma SameTails<T>(a: seq<T>, b: seq<T>)
    requires a != [] && b != [] && a[0] == b[0]
    requires multiset(a) == multiset(b)
    ensures multiset(a[1..]) == multiset(b[1..])
  {
    assert a == [a[0]] + a[1..] && b == [b[0]] + b[1..];
    assert multiset(a) == multiset{a[0]} + multiset(a[1..]);
    assert multiset(b) == multiset{a[0]} + multiset(b[1..]);
    assert multiset(a[1..]) == multiset(a) - multiset{a[0]};
    assert multiset(b[1..]) == multiset(b) - multiset{a[0]};
  }

  /** The tail of a sorted arrangement is sorted. */
  lemma SortedTail<T>(s: seq<T>, key: T -> SortValue, dir: Direction)
    requires s != [] && SortedBy(s, key, dir)
    ensures SortedBy(s[1..], key, dir)
  {
    var t := s[1..];
    forall i, j | 0 <= i < j < |t| ensures InOrder(key(t[i]), key(t[j]), dir) {
      assert t[i] == s[i + 1] && t[j] == s[j + 1];
    }
  }

  /** Reversing an ascending arrangement gives a descending one. */
  lemma ReverseAscIsDesc<T>(s: seq<T>, key: T -> SortValue)
    requires SortedBy(s, key, Asc)
    ensures SortedBy(Reverse(s), key, Desc)
  {
    var r := Reverse(s);
    var n := |s|;
    forall i, j | 0 <= i < j < n ensures InOrder(key(r[i]), key(r[j]), Desc) {
      assert InOrder(key(s[n - 1 - j]), key(s[n - 1 - i]), Asc);
    }
  }

  /** When no two records share a sort value, toggling the direction shows
      exactly the reversed view. */
  lemma DescViewIsReversedAsc<T(!new)>(s: seq<T>, key: T -> SortValue)
    requires KeyInjective(s, key)
    ensures SortView(s, key, Desc) == Reverse(SortView(s, key, Asc))
  {
    var up := SortView(s, key, Asc);
    var down := SortView(s, key, Desc);
    SortViewSorted(s, key, Asc);
    SortViewSorted(s, key, Desc);
    ReverseAscIsDesc(up, key);
    ReversePermutes(up);
    assert forall x :: x in down ==> x in multiset(s);
    SortedUnique(down, Reverse(up), key, Desc);
  }
}

=== FILE: sales.dfy ===
/** The sales page: a read-only sales history, a search on customer and
    sale number, and the "today" summary cards. Amounts are in cents. */
module SalesPage {
  import opened Seqs
  import opened Text
  import opened Store

  datatype SaleStatus = Completed | Cancelled

  datatype SaleItem = SaleItem(name: string, quantity: int, price: int)

  /** A sale minus its id. */
  datatype SaleFields = SaleFields(
    customer: string,
    items: seq<SaleItem>,
    total: int,
    date: string,
    time: string,
    status: SaleStatus)

  type Sale = Entity<SaleFields>

  /** The search predicate: the lower-cased term occurs in the lower-cased
      customer name, or the term as typed occurs in the sale number. */
  predicate Matches(s: Sale, term: string, lower: string -> string) {
    Includes(lower(s.fields.customer), lower(term)) || Includes(IntToString(s.id), term)
  }

  /** `filteredSales`. */
  function Search(ss: seq<Sale>, term: string, lower: string -> string): (r: seq<Sale>)
    ensures forall s :: s in r <==> s in ss && Matches(s, term, lower)
    ensures |r| <= |ss|
  {
    Filter(ss, s => Matches(s, term, lower))
  }

  /** The search keeps its hits in list order, an empty search box keeps
      every sale whatever the lower-casing (every id's text includes the
      empty string), and typing a sale's number always finds that sale. */
  lemma SearchProperties(ss: seq<Sale>, term: string, lower: string -> string)
    ensures IsSubsequence(Search(ss, term, lower), ss)
    ensures Search(ss, "", lower) == ss
    ensures forall s :: s in ss ==> s in Search(ss, IntToString(s.id), lower)
  {
    FilterIsSubsequence(ss, s => Matches(s, term, lower));
    forall i | 0 <= i < |ss| ensures Matches(ss[i], "", lower) {
      IncludesTrivial(IntToString(ss[i].id));
    }
    FilterKeepAll(ss, s => Matches(s, "", lower));
    forall s | s in ss ensures Matches(s, IntToString(s.id), lower) {
      IncludesTrivial(IntToString(s.id));
    }
  }

  /** The date the page treats as today; it is fixed in the page. */
  const Today := "2024-06-25"

  /** A completed sale dated today. */
  predicate IsTodaySale(s: Sale) {
    s.fields.date == Today && s.fields.status == Completed
  }

  /** `todaySales`: today's completed sales, in list order. */
  function TodaySales(ss: seq<Sale>): (r: seq<Sale>)
    ensures forall s :: s in r <==> s in ss && IsTodaySale(s)
    ensures |r| <= |ss|
  {
    Filter(ss, IsTodaySale)
  }

  predicate IsOtherSale(s: Sale) {
    !IsTodaySale(s)
  }

  function Total(s: Sale): int {
    s.fields.total
  }

  /** `todayRevenue`: the totals of today's completed sales added up,
      starting from 0. */
  function TodayRevenue(ss: seq<Sale>): (r: int)
    ensures TodaySales(ss) == [] ==> r == 0
  {
    SumOf(TodaySales(ss), Total)
  }

  /** Today's sales appear in list order; today's revenue and the revenue of
      every other sale add up to the revenue of all sales, and with
      non-negative totals today's revenue lies between 0 and that whole. */
  lemma TodayRevenueProperties(ss: seq<Sale>)
    ensures IsSubsequence(TodaySales(ss), ss)
    ensures TodayRevenue(ss) + SumOf(Filter(ss, IsOtherSale), Total) == SumOf(ss, Total)
    ensures (forall s :: s in ss ==> s.fields.total >= 0) ==> 0 <= TodayRevenue(ss) <= SumOf(ss, Total)
  {
    FilterIsSubsequence(ss, IsTodaySale);
    SumOfPartition(ss, IsTodaySale, IsOtherSale, Total);
    if forall s :: s in ss ==> s.fields.total >= 0 {
      FilteredSumBounded(ss, IsTodaySale, Total);
    }
  }

  /** The four sales the page starts with. */
  const Seed: seq<Sale> := [
    Entity(1, SaleFields("Maria Silva",
      [SaleItem("Leite Integral 1L", 2, 499), SaleItem("Pão Francês", 10, 80)],
      1798, "2024-06-25", "10:30", Completed)),
    Entity(2, SaleFields("João Santos",
      [SaleItem("Refrigerante Cola 2L", 3, 890), SaleItem("Detergente 500ml", 2, 350)],
      3370, "2024-06-25", "10:15", Completed)),
    Entity(3, SaleFields("Ana Costa",
      [SaleItem("Açúcar Crystal 1kg", 1, 420), SaleItem("Shampoo 400ml", 1, 1290)],
      1710, "2024-06-25", "09:45", Completed)),
    Entity(4, SaleFields("Pedro Lima",
      [SaleItem("Leite Integral 1L", 1, 499)],
      499, "2024-06-24", "16:20", Cancelled))
  ]

  /** On the seed data the summary shows three sales worth 68.78. */
  lemma SeedSummary()
    ensures TodaySales(Seed) == Seed[..3]
    ensures TodayRevenue(Seed) == 6878
  {
    SeedToday();
    FirstThreeToday(Seed);
  }

  lemma FirstThreeToday(s: seq<Sale>)
    requires |s| == 4 && IsTodaySale(s[0]) && IsTodaySale(s[1]) && IsTodaySale(s[2]) && !IsTodaySale(s[3])
    ensures TodaySales(s) == s[..3]
    ensures TodayRevenue(s) == s[0].fields.total + s[1].fields.total + s[2].fields.total
  {
    FirstThreeKept(s, IsTodaySale);
    assert s[..3] == [s[0], s[1], s[2]];
    SumOfThree(s[0], s[1], s[2], Total);
  }

  lemma SeedToday()
    ensures IsTodaySale(Seed[0]) && IsTodaySale(Seed[1]) && IsTodaySale(Seed[2])
    ensures !IsTodaySale(Seed[3])
    ensures Seed[0].fields.total + Seed[1].fields.total + Seed[2].fields.total == 6878
  {
  }

  lemma FirstThreeKept<T(!new)>(s: seq<T>, keep: T -> bool)
    requires |s| == 4 && keep(s[0]) && keep(s[1]) && keep(s[2]) && !keep(s[3])
    ensures Filter(s, keep) == [s[0], s[1], s[2]]
  {
    assert s[3..][1..] == [];
    assert Filter(s[3..], keep) == [];
    assert s[2..][1..] == s[3..];
    assert Filter(s[2..], keep) == [s[2]];
    assert s[1..][1..] == s[2..];
    assert Filter(s[1..], keep) == [s[1], s[2]];
  }

  lemma SumOfThree<T>(a: T, b: T, c: T, f: T -> int)
    ensures SumOf([a, b, c], f) == f(a) + f(b) + f(c)
  {
    assert [c][1..] == [];
    assert SumOf([c], f) == f(c);
    assert [b, c][1..] == [c];
    assert SumOf([b, c], f) == f(b) + f(c);
    assert [a, b, c][1..] == [b, c];
  }
}

=== FILE: seqs.dfy ===
/** Generic sequence operations shared by every page: the order-preserving
    `Array.prototype.filter` and the summing `reduce`. */
module Seqs {

  /** `r` can be obtained from `s` by deleting elements, keeping the order
      of the rest. */
  ghost predicate IsSubsequence<T>(r: seq<T>, s: seq<T>)
    decreases |s|
  {
    if r == [] then true
    else if s == [] then false
    else (r[0] == s[0] && IsSubsequence(r[1..], s[1..])) || IsSubsequence(r, s[1..])
  }

  /** The elements of `s` that satisfy `keep`, in their original order. */
  function Filter<T(==,!new)>(s: seq<T>, keep: T -> bool): (r: seq<T>)
    ensures |r| <= |s|
    ensures forall i :: 0 <= i < |r| ==> keep(r[i])
    ensures forall x :: x in r <==> x in s && keep(x)
    ensures forall x :: multiset(r)[x] == if keep(x) then multiset(s)[x] else 0
  {
    if s == [] then []
    else
      var rest := Filter(s[1..], keep);
      assert s == [s[0]] + s[1..];
      if keep(s[0]) then [s[0]] + rest else rest
  }

  /** Filtering a sequence with a known first element. */
  lemma FilterCons<T(!new)>(x: T, s: seq<T>, keep: T -> bool)
    ensures Filter([x] + s, keep) == (if keep(x) then [x] else []) + Filter(s, keep)
  {
    assert ([x] + s)[1..] == s;
  }

  /** Filtering keeps the relative order of the surviving elements. */
  lemma {:induction false} FilterIsSubsequence<T(!new)>(s: seq<T>, keep: T -> bool)
    ensures IsSubsequence(Filter(s, keep), s)
    decreases |s|
  {
    if s != [] {
      FilterIsSubsequence(s[1..], keep);
      var rest := Filter(s[1..], keep);
      if keep(s[0]) {
        assert Filter(s, keep) == [s[0]] + rest;
        assert ([s[0]] + rest)[1..] == rest;
      } else {
        SubsequenceOfTail(rest, s);
      }
    }
  }

  /** A subsequence of the tail is a subsequence of the whole. */
  lemma SubsequenceOfTail<T(!new)>(r: seq<T>, s: seq<T>)
    requires s != []
    requires IsSubsequence(r, s[1..])
    ensures IsSubsequence(r, s)
  {
  }

  /** When every element is kept, filtering is the identity. */
  lemma {:induction false} FilterKeepAll<T(!new)>(s: seq<T>, keep: T -> bool)
    requires forall i :: 0 <= i < |s| ==> keep(s[i])
    ensures Filter(s, keep) == s
    decreases |s|
  {
    if s != [] {
      FilterKeepAll(s[1..], keep);
      assert s == [s[0]] + s[1..];
    }
  }

  /** The number of elements kept never exceeds the input length, and
      equals it exactly when every element is kept. */
  lemma {:induction false} FilterFullLength<T(!new)>(s: seq<T>, keep: T -> bool)
    ensures |Filter(s, keep)| == |s| <==> forall i :: 0 <= i < |s| ==> keep(s[i])
    decreases |s|
  {
    if s != [] {
      FilterFullLength(s[1..], keep);
      if forall i :: 0 <= i < |s| ==> keep(s[i]) {
        FilterKeepAll(s, keep);
      }
      if !keep(s[0]) {
        assert |Filter(s, keep)| <= |s| - 1;
      }
      if |Filter(s, keep)| == |s| {
        assert keep(s[0]);
        forall i | 0 <= i < |s| ensures keep(s[i]) {
          if i > 0 { assert s[i] == s[1..][i - 1]; }
        }
      }
    }
  }

  /** Sum of `f` over the elements of `s` (a `reduce` starting at 0). */
  function SumOf<T>(s: seq<T>, f: T -> int): int
    decreases |s|
  {
    if s == [] then 0 else f(s[0]) + SumOf(s[1..], f)
  }

  /** A sequence splits into the part `keep` selects and the part `drop`
      selects when `drop` is the negation of `keep`, and the sum over the
      whole is the sum over the two parts. */
  lemma {:induction false} SumOfPartition<T(!new)>(s: seq<T>, keep: T -> bool, drop: T -> bool, f: T -> int)
    requires forall x :: drop(x) == !keep(x)
    ensures SumOf(Filter(s, keep), f) + SumOf(Filter(s, drop), f) == SumOf(s, f)
    decreases |s|
  {
    if s != [] {
      SumOfPartition(s[1..], keep, drop, f);
      if keep(s[0]) {
        assert Filter(s, keep) == [s[0]] + Filter(s[1..], keep);
        assert Filter(s, drop) == Filter(s[1..], drop);
      } else {
        assert Filter(s, keep) == Filter(s[1..], keep);
        assert Filter(s, drop) == [s[0]] + Filter(s[1..], drop);
      }
    }
  }

  /** With non-negative summands, the sum over a filtered part lies between
      0 and the sum over the whole. */
  lemma FilteredSumBounded<T(!new)>(s: seq<T>, keep: T -> bool, f: T -> int)
    requires forall x :: x in s ==> f(x) >= 0
    ensures 0 <= SumOf(Filter(s, keep), f) <= SumOf(s, f)
  {
    var drop := (x: T) => !keep(x);
    SumOfPartition(s, keep, drop, f);
    SumNonNegative(Filter(s, keep), f);
    SumNonNegative(Filter(s, drop), f);
  }

  lemma {:induction false} SumNonNegative<T>(s: seq<T>, f: T -> int)
    requires forall x :: x in s ==> f(x) >= 0
    ensures SumOf(s, f) >= 0
    decreases |s|
  {
    if s != [] {
      assert forall x :: x in s[1..] ==> x in s;
      SumNonNegative(s[1..], f);
    }
  }

  /** The elements of `s` in the opposite order. */
  function Reverse<T>(s: seq<T>): (r: seq<T>)
    ensures |r| == |s|
    ensures forall i :: 0 <= i < |s| ==> r[i] == s[|s| - 1 - i]
    decreases |s|
  {
    if s == [] then [] else Reverse(s[1..]) + [s[0]]
  }

  lemma {:induction false} ReversePermutes<T>(s: seq<T>)
    ensures multiset(Reverse(s)) == multiset(s)
    decreases |s|
  {
    if s != [] {
      ReversePermutes(s[1..]);
      assert s == [s[0]] + s[1..];
    }
  }
}

=== FILE: store.dfy ===
/** The entity store every page reimplements over its `useState` array:
    an ordered sequence of records, each an integer id plus the record's
    other fields (the form's "record minus id" draft). */
module Store {
  import opened Wrappers
  import opened Seqs

  datatype Entity<D> = Entity(id: int, fields: D)

  /** No two records share an id. */
  predicate IdsUnique<D>(s: seq<Entity<D>>) {
    forall i, j :: 0 <= i < j < |s| ==> s[i].id != s[j].id
  }

  /** Every id is a positive integer, as every id the store assigns is. */
  predicate IdsPositive<D>(s: seq<Entity<D>>) {
    forall i :: 0 <= i < |s| ==> s[i].id >= 1
  }

  /** `Math.max(...s.map(e => e.id), 0)`: the largest id, or 0 when every
      id is below 0 or there is none. */
  function MaxId<D>(s: seq<Entity<D>>): (m: int)
    ensures m >= 0
    ensures forall i :: 0 <= i < |s| ==> s[i].id <= m
    ensures m == 0 || exists i :: 0 <= i < |s| && s[i].id == m
    decreases |s|
  {
    if s == [] then 0
    else
      var rest := MaxId(s[1..]);
      if s[0].id > rest then s[0].id else rest
  }

  /** A store whose records all come from `s` has no larger maximum id, and
      the same one when it keeps a record carrying that maximum. */
  lemma MaxIdOfPart<D>(t: seq<Entity<D>>, s: seq<Entity<D>>)
    requires forall e :: e in t ==> e in s
    ensures MaxId(t) <= MaxId(s)
    ensures (exists i :: 0 <= i < |t| && t[i].id == MaxId(s)) ==> MaxId(t) == MaxId(s)
  {
    if MaxId(t) != 0 {
      var i :| 0 <= i < |t| && t[i].id == MaxId(t);
      assert t[i] in s;
    }
  }

  /** The id `create` assigns: one more than the largest present id. */
  function NextId<D>(s: seq<Entity<D>>): (n: int)
    ensures n >= 1
    ensures forall i :: 0 <= i < |s| ==> s[i].id < n
    ensures n == 1 || exists i :: 0 <= i < |s| && s[i].id == n - 1
  {
    MaxId(s) + 1
  }

  /** `arr.find(e => e.id === id)`: the first record with that id. */
  function Find<D>(s: seq<Entity<D>>, id: int): (r: Option<Entity<D>>)
    ensures r.None? <==> forall i :: 0 <= i < |s| ==> s[i].id != id
    ensures r.Some? ==> r.value.id == id && r.value in s
    decreases |s|
  {
    if s == [] then None
    else if s[0].id == id then Some(s[0])
    else Find(s[1..], id)
  }

  /** `handleCreate`: the draft, given the next id, appended at the end. */
  function Create<D>(s: seq<Entity<D>>, d: D): (r: seq<Entity<D>>)
    ensures |r| == |s| + 1
    ensures r[..|s|] == s
    ensures r[|s|].fields == d
    ensures r[|s|].id >= 1 && (s == [] ==> r[|s|].id == 1)
    ensures forall i :: 0 <= i < |s| ==> s[i].id < r[|s|].id
    ensures IdsUnique(s) ==> IdsUnique(r)
    ensures IdsPositive(s) ==> IdsPositive(r)
  {
    s + [Entity(NextId(s), d)]
  }

  /** `handleEdit`: every record carrying the edited id gets the draft's
      fields and keeps its id and its position; the others are untouched.
      An id that is not present leaves the sequence as it was. */
  function Edit<D>(s: seq<Entity<D>>, id: int, d: D): (r: seq<Entity<D>>)
    ensures |r| == |s|
    ensures forall i :: 0 <= i < |s| ==> r[i].id == s[i].id
    ensures forall i :: 0 <= i < |s| && s[i].id == id ==> r[i].fields == d
    ensures forall i :: 0 <= i < |s| && s[i].id != id ==> r[i] == s[i]
    ensures IdsUnique(s) ==> IdsUnique(r)
    ensures IdsPositive(s) ==> IdsPositive(r)
  {
    seq(|s|, i requires 0 <= i < |s| => if s[i].id == id then Entity(id, d) else s[i])
  }

  /** `handleDelete`: the records whose id differs, in their order. */
  function Delete<D(==,!new)>(s: seq<Entity<D>>, id: int): (r: seq<Entity<D>>)
    ensures forall i :: 0 <= i < |r| ==> r[i].id != id
    ensures forall e :: e in r <==> e in s && e.id != id
    ensures IdsUnique(s) ==> IdsUnique(r)
    ensures IdsPositive(s) ==> IdsPositive(r)
  {
    var r := Filter(s, (e: Entity<D>) => e.id != id);
    FilterPreservesUnique(s, (e: Entity<D>) => e.id != id);
    r
  }

  /** Filtering a store keeps its ids pairwise distinct. */
  lemma {:induction false} FilterPreservesUnique<D(!new)>(s: seq<Entity<D>>, keep: Entity<D> -> bool)
    ensures IdsUnique(s) ==> IdsUnique(Filter(s, keep))
    decreases |s|
  {
    if s != [] && IdsUnique(s) {
      var tail := s[1..];
      assert IdsUnique(tail) by {
        forall i, j | 0 <= i < j < |tail| ensures tail[i].id != tail[j].id {
          assert tail[i] == s[i + 1] && tail[j] == s[j + 1];
        }
      }
      FilterPreservesUnique(tail, keep);
      var rest := Filter(tail, keep);
      if keep(s[0]) {
        assert Filter(s, keep) == [s[0]] + rest;
        assert forall e :: e in tail ==> e.id != s[0].id by {
          forall e | e in tail ensures e.id != s[0].id {
            var k :| 0 <= k < |tail| && tail[k] == e;
            assert s[k + 1] == e;
          }
        }
        ConsPreservesUnique(s[0], rest);
      }
    }
  }

  lemma ConsPreservesUnique<D>(e: Entity<D>, rest: seq<Entity<D>>)
    requires IdsUnique(rest)
    requires forall x :: x in rest ==> x.id != e.id
    ensures IdsUnique([e] + rest)
  {
    var r := [e] + rest;
    forall i, j | 0 <= i < j < |r| ensures r[i].id != r[j].id {
      assert r[j] == rest[j - 1];
      if i > 0 { assert r[i] == rest[i - 1]; }
    }
  }

  /** Create assigns an id no present record has, and it can be found. */
  lemma CreateThenFind<D>(s: seq<Entity<D>>, d: D)
    ensures Find(s, NextId(s)).None?
    ensures Find(Create(s, d), NextId(s)) == Some(Entity(NextId(s), d))
  {
    var r := Create(s, d);
    FindAppend(s, Entity(NextId(s), d));
  }

  lemma {:induction false} FindAppend<D>(s: seq<Entity<D>>, e: Entity<D>)
    requires forall i :: 0 <= i < |s| ==> s[i].id != e.id
    ensures Find(s + [e], e.id) == Some(e)
    decreases |s|
  {
    if s != [] {
      assert (s + [e])[1..] == s[1..] + [e];
      FindAppend(s[1..], e);
    }
  }

  /** After editing a present id, looking that id up yields the draft. */
  lemma EditThenFind<D>(s: seq<Entity<D>>, id: int, d: D)
    requires Find(s, id).Some?
    ensures Find(Edit(s, id, d), id) == Some(Entity(id, d))
  {
    var r := Edit(s, id, d);
    assert Find(r, id).Some?;
    FindIsFirst(r, id);
  }

  /** `Find` returns the record at the first position holding the id. */
  lemma {:induction false} FindIsFirst<D>(s: seq<Entity<D>>, id: int)
    requires Find(s, id).Some?
    ensures exists k :: 0 <= k < |s| && s[k].id == id && Find(s, id) == Some(s[k])
                    && forall j :: 0 <= j < k ==> s[j].id != id
    decreases |s|
  {
    if s[0].id != id {
      FindIsFirst(s[1..], id);
      var k :| 0 <= k < |s[1..]| && s[1..][k].id == id && Find(s[1..], id) == Some(s[1..][k])
               && forall j :: 0 <= j < k ==> s[1..][j].id != id;
      assert s[k + 1] == s[1..][k];
      forall j | 0 < j <= k ensures s[j].id != id {
        assert s[j] == s[1..][j - 1];
      }
    } else {
      assert Find(s, id) == Some(s[0]);
    }
  }

  /** Editing an id that no record carries changes nothing. */
  lemma EditAbsentIsNoop<D>(s: seq<Entity<D>>, id: int, d: D)
    requires Find(s, id).None?
    ensures Edit(s, id, d) == s
  {
  }

  /** Deleting an id that no record carries changes nothing. */
  lemma DeleteAbsentIsNoop<D(!new)>(s: seq<Entity<D>>, id: int)
    requires Find(s, id).None?
    ensures Delete(s, id) == s
  {
    FilterKeepAll(s, (e: Entity<D>) => e.id != id);
  }

  /** Deleting the largest id `m` when `m - 1` is present (or `m` is 1)
      makes the next create hand out exactly `m` again. */
  lemma DeleteMaxFreesIt<D(!new)>(s: seq<Entity<D>>, m: int)
    requires m == MaxId(s) && m > 0
    requires m == 1 || exists i :: 0 <= i < |s| && s[i].id == m - 1
    ensures NextId(Delete(s, m)) == m
  {
    var t := Delete(s, m);
    forall e | e in t ensures e.id < m {
      MaxIdBounds(s, e);
    }
    MaxIdBelow(t, m);
    if m != 1 {
      var i :| 0 <= i < |s| && s[i].id == m - 1;
      assert s[i] in t;
      MaxIdBounds(t, s[i]);
    }
  }

  /** Every record's id is at most the maximum. */
  lemma MaxIdBounds<D>(s: seq<Entity<D>>, e: Entity<D>)
    requires e in s
    ensures e.id <= MaxId(s)
  {
    var k :| 0 <= k < |s| && s[k] == e;
  }

  /** A store whose ids all lie below a positive bound has its maximum
      below that bound. */
  lemma MaxIdBelow<D>(s: seq<Entity<D>>, m: int)
    requires m > 0
    requires forall e :: e in s ==> e.id < m
    ensures MaxId(s) < m
  {
    if MaxId(s) != 0 {
      var k :| 0 <= k < |s| && s[k].id == MaxId(s);
      assert s[k] in s;
    }
  }

  /** Delete keeps the surviving records in their original relative order,
      and each survivor as often as before. */
  lemma DeleteKeepsOrder<D(!new)>(s: seq<Entity<D>>, id: int)
    ensures IsSubsequence(Delete(s, id), s)
    ensures forall e: Entity<D> :: e.id != id ==> multiset(Delete(s, id))[e] == multiset(s)[e]
  {
    FilterIsSubsequence(s, (e: Entity<D>) => e.id != id);
  }

  /** After a delete the id is gone, so a second delete of it finds
      nothing and changes nothing. */
  lemma DeleteTwice<D(!new)>(s: seq<Entity<D>>, id: int)
    ensures Find(Delete(s, id), id).None?
    ensures Delete(Delete(s, id), id) == Delete(s, id)
  {
    DeleteAbsentIsNoop(Delete(s, id), id);
  }

  /** Delete shrinks the store by exactly the records carrying the id:
      by one when ids are unique and the id is present. */
  lemma {:induction false} DeleteShrinksByOne<D(!new)>(s: seq<Entity<D>>, id: int)
    requires IdsUnique(s)
    requires Find(s, id).Some?
    ensures |Delete(s, id)| == |s| - 1
    decreases |s|
  {
    var keep := (e: Entity<D>) => e.id != id;
    var tail := s[1..];
    assert IdsUnique(tail) by {
      forall i, j | 0 <= i < j < |tail| ensures tail[i].id != tail[j].id {
        assert tail[i] == s[i + 1] && tail[j] == s[j + 1];
      }
    }
    if s[0].id == id {
      assert forall i :: 0 <= i < |tail| ==> keep(tail[i]) by {
        forall i | 0 <= i < |tail| ensures keep(tail[i]) { assert tail[i] == s[i + 1]; }
      }
      FilterKeepAll(tail, keep);
      assert Filter(s, keep) == Filter(tail, keep);
    } else {
      assert Filter(s, keep) == [s[0]] + Filter(tail, keep);
      DeleteShrinksByOne(tail, id);
    }
  }
}

=== FILE: text.dfy ===
/** String operations the pages rely on: `String.prototype.includes`,
    `split('T')[0]`, `Number.prototype.toString` on integer ids, and the
    truthiness default `s || d`. Strings are sequences of characters. */
module Text {

  /** `p` is a prefix of `s`. */
  predicate IsPrefix(p: string, s: string) {
    |p| <= |s| && s[..|p|] == p
  }

  /** `hay.includes(needle)`: the needle occurs somewhere in the haystack.
      The empty needle occurs in every string, the empty one included. */
  predicate Includes(hay: string, needle: string)
    decreases |hay|
  {
    IsPrefix(needle, hay) || (|hay| > 0 && Includes(hay[1..], needle))
  }

  /** The needle starts at position `i` of the haystack. */
  ghost predicate OccursAt(hay: string, needle: string, i: int) {
    0 <= i && i + |needle| <= |hay| && hay[i..i + |needle|] == needle
  }

  /** `Includes` agrees with the positional definition of a substring. */
  lemma IncludesIffOccurs(hay: string, needle: string)
    ensures Includes(hay, needle) <==> exists i :: OccursAt(hay, needle, i)
  {
    if Includes(hay, needle) {
      var i := IncludesWitness(hay, needle);
    }
    if exists i :: OccursAt(hay, needle, i) {
      var i :| OccursAt(hay, needle, i);
      OccursImpliesIncludes(hay, needle, i);
    }
  }

  /** A position where an included needle starts. */
  lemma {:induction false} IncludesWitness(hay: string, needle: string) returns (i: int)
    requires Includes(hay, needle)
    ensures OccursAt(hay, needle, i)
    decreases |hay|
  {
    if IsPrefix(needle, hay) {
      i := 0;
    } else {
      var j := IncludesWitness(hay[1..], needle);
      assert hay[1..][j..j + |needle|] == hay[j + 1..j + 1 + |needle|];
      i := j + 1;
    }
  }

  /** A needle that starts at some position is included. */
  lemma {:induction false} OccursImpliesIncludes(hay: string, needle: string, i: int)
    requires OccursAt(hay, needle, i)
    ensures Includes(hay, needle)
    decreases i
  {
    if i == 0 {
      assert IsPrefix(needle, hay);
    } else {
      assert hay[1..][i - 1..i - 1 + |needle|] == hay[i..i + |needle|];
      OccursImpliesIncludes(hay[1..], needle, i - 1);
    }
  }

  /** A string that does not contain the needle's first character does not
      include the needle. */
  lemma {:induction false} IncludesNeedsFirstChar(hay: string, needle: string)
    requires |needle| > 0 && needle[0] !in hay
    ensures !Includes(hay, needle)
    decreases |hay|
  {
    if |hay| > 0 {
      assert hay[0] != needle[0];
      assert forall c :: c in hay[1..] ==> c in hay;
      IncludesNeedsFirstChar(hay[1..], needle);
    }
  }

  /** Every string includes the empty string and itself. */
  lemma IncludesTrivial(s: string)
    ensures Includes(s, "")
    ensures Includes(s, s)
  {
    assert IsPrefix("", s);
    assert IsPrefix(s, s);
  }

  /** `s.split(c)[0]`: the part of `s` before the first occurrence of `c`,
      or all of `s` when `c` does not occur. */
  function BeforeFirst(s: string, c: char): (r: string)
    ensures IsPrefix(r, s)
    ensures c !in r
    ensures r == s || s[|r|] == c
    decreases |s|
  {
    if s == [] || s[0] == c then []
    else [s[0]] + BeforeFirst(s[1..], c)
  }

  /** JavaScript truthiness default on a string: `s || d`. The result is
      falsy only when both sides are, a truthy `s` wins, a falsy `s` yields
      the default, and the default `''` leaves every string as it was. */
  function OrElse(s: string, d: string): (r: string)
    ensures r != "" <==> s != "" || d != ""
    ensures s != "" ==> r == s
    ensures s == "" ==> r == d
    ensures d == "" ==> r == s
  {
    if s == "" then d else s
  }

  /** JavaScript truthiness default on a number: `n || d`, where 0 is the
      only falsy integer. */
  function NumberOr(n: int, d: int): (r: int)
    ensures r != 0 <==> n != 0 || d != 0
    ensures n != 0 ==> r == n
    ensures n == 0 ==> r == d
    ensures d == 0 ==> r == n
  {
    if n == 0 then d else n
  }

  /** The ASCII-only lower-casing; a concrete instance of `toLowerCase` for
      text whose upper-case letters are all ASCII. */
  function AsciiLower(s: string): (r: string)
    ensures |r| == |s|
    ensures forall i :: 0 <= i < |s| ==> r[i] == LowerChar(s[i])
    decreases |s|
  {
    if s == [] then [] else [LowerChar(s[0])] + AsciiLower(s[1..])
  }

  function LowerChar(c: char): char {
    if 'A' <= c <= 'Z' then (c as int - 'A' as int + 'a' as int) as char else c
  }

  predicate IsDigit(c: char) {
    '0' <= c <= '9'
  }

  function DigitChar(d: int): (c: char)
    requires 0 <= d < 10
    ensures IsDigit(c)
  {
    ('0' as int + d) as char
  }

  function DigitValue(c: char): (d: int)
    requires IsDigit(c)
    ensures 0 <= d < 10
    ensures DigitChar(d) == c
  {
    c as int - '0' as int
  }

  /** The decimal numeral of a natural number, without leading zeros. */
  function NatToDecimal(n: nat): (r: string)
    ensures |r| >= 1
    ensures forall i :: 0 <= i < |r| ==> IsDigit(r[i])
    ensures |r| > 1 ==> r[0] != '0'
    decreases n
  {
    if n < 10 then [DigitChar(n)]
    else NatToDecimal(n / 10) + [DigitChar(n % 10)]
  }

  /** The value of a string of decimal digits. */
  function DecimalToNat(s: string): nat
    requires forall i :: 0 <= i < |s| ==> IsDigit(s[i])
    decreases |s|
  {
    if s == [] then 0
    else DecimalToNat(s[..|s| - 1]) * 10 + DigitValue(s[|s| - 1])
  }

  /** Reading a numeral back gives the number it was written from. */
  lemma {:induction false} DecimalRoundTrip(n: nat)
    ensures DecimalToNat(NatToDecimal(n)) == n
    decreases n
  {
    var r := NatToDecimal(n);
    if n >= 10 {
      DecimalRoundTrip(n / 10);
      assert r[..|r| - 1] == NatToDecimal(n / 10);
    }
  }

  /** `n.toString()` for an integer: an optional minus sign followed by the
      decimal numeral of the magnitude. */
  function IntToString(n: int): (r: string)
  {
    if n < 0 then "-" + NatToDecimal(-n) else NatToDecimal(n)
  }

  /** Distinct integers have distinct strings, so an id string names one id. */
  lemma IntToStringInjective(m: int, n: int)
    requires IntToString(m) == IntToString(n)
    ensures m == n
  {
    if m < 0 {
      assert IntToString(m)[0] == '-';
      assert !IsDigit(IntToString(m)[0]);
      assert NatToDecimal(-m) == IntToString(m)[1..];
      assert NatToDecimal(-n) == IntToString(n)[1..];
      DecimalRoundTrip(-m);
      DecimalRoundTrip(-n);
    } else {
      assert IsDigit(IntToString(m)[0]);
      DecimalRoundTrip(m);
      DecimalRoundTrip(n);
    }
  }
}

=== FILE: wrappers.dfy ===
/** The optional-value datatype used wherever the source has `undefined`,
    `null` or a failed parse. */
module Wrappers {

  datatype Option<+T> = None | Some(value: T) {

    /** The encapsulated value, or `default` when there is none. */
    function GetOr(default: T): T {
      match this
      case Some(v) => v
      case None => default
    }
  }
}
